=== FILE: README.md ===
# Mini e-commerce backend: a Dafny model

This project models the request-handling core of a small NestJS shop
backend. Users sign up, confirm a one-time code by mail and sign in with
JWT cookies. An OWNER account is created at start-up. Admins manage
categories and products, and products carry uploaded images. The model
covers:

- the services: auth, user, category and product;
- the guards: bearer-token authentication and the role/self checks;
- the helpers: `errorCatch`, `checkUniqueFields` and `removeFilesSafe`;
- the global exception filter;
- the upload configuration (file filter, stored names and limits);
- the product request body with its trim/number transforms and validation
  rules.

The model is functional. The database is one immutable record `Entities.Db`
with four tables (users, OTP rows, categories, products), each keyed by an
auto-increment id. `Entities.Valid` collects the constraints the schema
enforces:

- ids are keyed correctly;
- `email` and category `name` are unique;
- foreign keys resolve.

Every service operation is a function from a database to a
`Step(db', outcome)`. The outcome is a value, or the thrown exception in
Nest's own shape (`Http.Thrown`: status plus response string or object).
Each operation also proves that it preserves `Valid`. Hashing, token
verification, mail delivery, clocks and random names are parameters.

Modules follow the source layout:

| Module | What it covers |
|---|---|
| `Text` | JS strings: `split`, `trim`, `toLowerCase`, number-to-string |
| `Paths` | Node's `path.basename`, `extname` and `join` |
| `Http` | Nest exceptions |
| `Roles` | the role enum and token payload |
| `ErrorHandler` | the global exception filter |
| `ErrorCatch` | the `errorCatch` helper |
| `AuthGuard` | bearer-token authentication |
| `RoleGuards` | the role and self checks |
| `UniqueFields` | the `checkUniqueFields` helper |
| `FileDelete` | the `removeFilesSafe` helper |
| `MulterConfig` | the upload configuration |
| `ProductDto` | the product request body |
| `Entities` | the tables and the schema constraints |
| `ProductOrder` | product ordering and paging |
| `UserService`, `AuthService`, `CategoryService`, `ProductService` | the services |

## Model

| member | source | states |
|---|---|---|
| Text.NatToString | src/user/user.service.ts:90 | the decimal rendering used in `${id}` messages is a non-empty digit string with no leading zero |
| Text.IntToString | src/user/user.service.ts:90 | a rendered integer is never empty |
| Text.DigitsRoundTrip | src/user/user.service.ts:90 | reading the digits back gives the number |
| Text.NatToStringInjective | src/user/user.service.ts:90 | distinct natural numbers render differently |
| Text.IntToStringInjective | src/category/category.service.ts:78 | distinct ids give distinct "not found" texts |
| Text.Split | src/common/guard/authGuard.ts:26 | `split(" ")` yields at least one part, and no part contains the separator |
| Text.JoinSplit | src/common/guard/authGuard.ts:26 | joining the parts with the separator restores the header |
| Text.SplitJoin | src/common/guard/authGuard.ts:26 | splitting a join of separator-free parts gives the parts back |
| Text.SplitPrefix | src/common/guard/authGuard.ts:26 | a separator-free prefix is glued onto the first part |
| Text.SplitNoSep | src/common/guard/authGuard.ts:26 | a string without the separator is a single part |
| Text.SplitAtSep | src/common/guard/authGuard.ts:26 | a separator after a separator-free prefix makes that prefix the first part |
| Text.TrimStart | src/product/dto/create-product.dto.ts:19 | a suffix of the input that starts with a non-space, and only white space was dropped |
| Text.TrimEnd | src/product/dto/create-product.dto.ts:19 | a prefix of the input that ends with a non-space, and only white space was dropped |
| Text.Trim | src/product/dto/create-product.dto.ts:19 | `trim()` returns an infix of the input with no white space at either end, and everything dropped before and after it is white space |
| Text.TrimPadded | src/product/dto/create-product.dto.ts:19 | white space padded around a text that neither starts nor ends with white space is removed exactly |
| Text.TrimIdempotent | src/product/dto/create-product.dto.ts:19 | trimming twice is trimming once |
| Text.ToLower | src/config/multer.config.ts:19 | `toLowerCase` keeps the length and lowers each ASCII capital |
| Text.ToLowerFixesNonUpper | src/config/multer.config.ts:19 | a string with no capitals is unchanged |
| Text.LastIndexBefore | src/common/utils/file-delete.util.ts:10 | the last occurrence among the first n characters, or -1 exactly when there is none |
| Text.LastIndexOf | src/common/utils/file-delete.util.ts:10 | the last occurrence of a character, or -1 exactly when there is none |
| Text.LastIndexOfIs | src/common/utils/file-delete.util.ts:10 | any position matching that description is the one returned |
| Paths.StripTrailingSlashes | src/common/utils/file-delete.util.ts:10 | `basename` first drops trailing slashes: a prefix that is all slashes beyond its end |
| Paths.AfterLastSlash | src/common/utils/file-delete.util.ts:10 | the slash-free suffix after the last slash |
| Paths.Basename | src/common/utils/file-delete.util.ts:10 | `path.basename` never contains a slash |
| Paths.BasenameIsLastComponent | src/common/utils/file-delete.util.ts:10 | the basename is the slash-free suffix after the last slash, once trailing slashes are dropped |
| Paths.AfterLastSlashOfChild | src/common/utils/file-delete.util.ts:10 | whatever precedes a slash, the slash-free part after it is what remains |
| Paths.BasenameOfChild | src/common/utils/file-delete.util.ts:10 | the basename of `dir + "/" + name` is `name` |
| Paths.Extname | src/config/multer.config.ts:15 | `path.extname` is empty or a dot-led, dot-free suffix strictly shorter than the basename |
| Paths.JoinUnder | src/common/utils/file-delete.util.ts:10 | joining a plain segment to the upload directory makes a direct child |
| Paths.ExtnameOfStemAndExt | src/config/multer.config.ts:15 | a plain stem followed by an extension has exactly that extension |
| Paths.LastDotOfStemAndExt | src/config/multer.config.ts:15 | the last dot of such a name is the one that starts the extension |
| Paths.NoSlashIsOwnBasename | src/common/utils/file-delete.util.ts:10 | a slash-free name is its own last segment |
| Paths.BasenameNoSlash | src/common/utils/file-delete.util.ts:10 | a slash-free name is its own basename |
| Paths.ExtnameAt | src/config/multer.config.ts:19 | the extension starts at the last dot of a name |
| Roles.RoleNameInjective | src/common/enum/index.ts:1-5 | the enum values name the roles one-to-one |
| ErrorHandler.Catch | src/common/error/error-handler.ts:16-52 | the body's statusCode is the reply status; an HttpException keeps its status and anything else is 500; the label is the default or the response's own |
| ErrorHandler.BuiltInReportedVerbatim | src/common/error/error-handler.ts:28-41 | a built-in exception with a message and a label is sent as its own body |
| ErrorHandler.NonHttpIs500WithDefaultLabel | src/common/error/error-handler.ts:16-22 | a non-HTTP throw is 500 "Bad Request"; an Error keeps its message and anything else gets "Something went wrong" |
| ErrorHandler.StringResponseVerbatim | src/common/error/error-handler.ts:26-27 | a string response is the message verbatim, even when empty |
| ErrorHandler.ObjectResponseDefaults | src/common/error/error-handler.ts:32-41 | missing or falsy `message`/`error` members fall back to the defaults |
| ErrorHandler.MemberlessResponseDefaults | src/common/error/error-handler.ts:28-41 | an array or absent response gives the default message and label |
| ErrorCatch.ErrorCatch | src/common/helpers/error-catch.ts:3-10 | always throws an HttpException: with the response's message and statusCode when there is one, otherwise 500 with the JSON text |
| ErrorCatch.BranchByResponseOnly | src/common/helpers/error-catch.ts:5-9 | the result is the internal error exactly when `err.response` is falsy |
| ErrorCatch.RethrownBuiltInLosesLabel | src/common/helpers/error-catch.ts:6 | a rethrown built-in reaches the client with its status and message but under the default label "Bad Request" |
| ErrorCatch.RethrownListLosesMessages | src/common/helpers/error-catch.ts:6 | a rethrown list of messages (a Conflict) reaches the client only as the default message |
| AuthGuard.BearerToken | src/common/guard/authGuard.ts:26-30 | an accepted token is non-empty and space-free |
| AuthGuard.VerifyFailureMessage | src/common/guard/authGuard.ts:40-46 | "TokenExpiredError" is reported as "Token expired", "JsonWebTokenError" as "Invalid token", any other error as "Unauthorized" |
| AuthGuard.CanActivate | src/common/guard/authGuard.ts:20-47 | every refusal is 401; a missing or empty header gives "Authorization header not found", a bad format "Invalid token format", and a failed verification the message its error name maps to; the request passes exactly when a bearer token verifies, and the verified payload is attached |
| AuthGuard.BearerHeaderAccepted | src/common/guard/authGuard.ts:26-30 | "Bearer <token>" followed by nothing or a space is accepted with that token |
| AuthGuard.AcceptedHeaderShape | src/common/guard/authGuard.ts:26-30 | conversely, every accepted header has that shape |
| AuthGuard.BareSchemeRejected | src/common/guard/authGuard.ts:28 | "Bearer" alone is refused |
| AuthGuard.EmptyTokenRejected | src/common/guard/authGuard.ts:28 | "Bearer " is refused |
| AuthGuard.DoubleSpaceRejected | src/common/guard/authGuard.ts:26-28 | two spaces after the scheme are refused, whatever follows |
| AuthGuard.LowerCaseSchemeRejected | src/common/guard/authGuard.ts:28 | the scheme is compared case-sensitively |
| RoleGuards.AdminGuard | src/common/guard/admin.guard.ts:15-23 | admits exactly OWNER and ADMIN; refuses with "Forbidden user with role <role>"; never answers false |
| RoleGuards.SelfGuard | src/common/guard/user.guard.ts:16-27 | admits exactly the owner or a caller acting on its own id |
| RoleGuards.UserGuard | src/common/guard/userGuard.ts:15-26 | admits owner and admin always, and a user only on its own id |
| RoleGuards.AdminGuardIgnoresParams | src/common/guard/admin.guard.ts:15-23 | the verdict does not depend on the route parameter |
| RoleGuards.AdminOnOtherIdDiffers | src/common/guard/user.guard.ts:21-26 | an admin on another id is refused by one guard and admitted by the other |
| RoleGuards.SelfGuardAdmitsImpliesUserGuard | src/common/guard/userGuard.ts:16-25 | whatever user.guard.ts admits, userGuard.ts admits |
| UniqueFields.CheckUniqueFields | src/common/helpers/check-unique-fields.ts:8-17 | at most one message per field; no messages exactly when no field is taken; every message belongs to a taken field and every taken field has its message |
| UniqueFields.ErrorsInFieldOrder | src/common/helpers/check-unique-fields.ts:10-15 | the messages follow field order |
| UniqueFields.AllTakenOnePerField | src/common/helpers/check-unique-fields.ts:13 | with every field taken, message i is field i's |
| FileDelete.Where | src/common/utils/file-delete.util.ts:22-32 | the positions whose outcome is of one kind, each once, in increasing order |
| FileDelete.NoneWhere | src/common/utils/file-delete.util.ts:22-32 | no position is found exactly when no outcome is of that kind |
| FileDelete.SummaryUnique | src/common/utils/file-delete.util.ts:15-34 | the description of a summary pins it down: two summaries of the same outcomes are equal |
| FileDelete.Tally | src/common/utils/file-delete.util.ts:22-32 | the counts are the numbers of fulfilled, ENOENT and other outcomes; the error lines are "name -> message" for exactly the other failures, one each, in file order |
| FileDelete.NoFailureKinds | src/common/utils/file-delete.util.ts:22-32 | a count is zero exactly when no outcome is of its kind, and everything is deleted exactly when every unlink was fulfilled |
| FileDelete.TallyTwo | src/common/utils/file-delete.util.ts:22-32 | a deleted file followed by a missing one is summarised as one deleted and one missing, with no errors |
| FileDelete.SummarisesStep | src/common/utils/file-delete.util.ts:22-32 | adding the next file's outcome to the summary of the files before it summarises them all |
| FileDelete.Outcomes | src/common/utils/file-delete.util.ts:8-13 | outcome i is how the i-th unlink, aimed at that name's target path, settled |
| FileDelete.RemoveFilesSafe | src/common/utils/file-delete.util.ts:4-35 | the summary describes the unlink outcomes: counts per kind and one error line per failure, in file order; no failure exactly when no unlink failed other than ENOENT |
| FileDelete.RepeatedNameSettlesTwice | src/common/utils/file-delete.util.ts:8-13 | a name listed twice is unlinked twice: one deletion and one missing file |
| FileDelete.MissingIsNotFailure | src/common/utils/file-delete.util.ts:26 | files that are already gone are not failures |
| FileDelete.TargetIsDirectChild | src/common/utils/file-delete.util.ts:10 | an ordinary name is unlinked directly under the base directory |
| FileDelete.DotDotEscapesBase | src/common/utils/file-delete.util.ts:10 | the name ".." targets the base directory's parent |
| MulterConfig.FileFilter | src/config/multer.config.ts:18-24 | accepts exactly the files whose lowered extension is in the image list; otherwise BadRequest "Only image files are allowed!" |
| MulterConfig.StoredName | src/config/multer.config.ts:10-16 | the stored name keeps the original extension |
| MulterConfig.UpperCaseExtensionAccepted | src/config/multer.config.ts:19-20 | ".JPG" is accepted |
| MulterConfig.LowerJpg | src/config/multer.config.ts:5 | ".JPG" lowers to the first allowed type |
| MulterConfig.DoubleExtensionRefused | src/config/multer.config.ts:19-21 | "x.png.gz" is refused: only the last extension counts |
| MulterConfig.GzNotAllowed | src/config/multer.config.ts:5 | ".gz" is not an image type |
| MulterConfig.DotFileRefused | src/config/multer.config.ts:19-21 | ".png" has no extension, so it is refused |
| MulterConfig.TotalWithinLimits | src/config/multer.config.ts:25-28 | a batch within the limits holds at most 10 x 5 MiB bytes |
| MulterConfig.WithinLimitsJoin | src/config/multer.config.ts:25-28 | two batches together are within the limits exactly when each is and there are at most 10 files |
| ProductDto.MinLengthCount | src/product/dto/create-product.dto.ts:17 | the length `@MinLength` measures is at most the character count, and equal to it exactly when there is no variation selector |
| ProductDto.MinLengthCountAppend | src/product/dto/create-product.dto.ts:17 | that length adds up over concatenation |
| ProductDto.MinLengthCountExamples | src/product/dto/create-product.dto.ts:17 | an emoji counts once and a variation selector not at all |
| ProductDto.Failures | src/product/dto/create-product.dto.ts:15-74 | the failed fields are reported exactly, and none exactly when every field passes |
| ProductDto.ValidateCreate | src/product/dto/create-product.dto.ts:15-86 | a title, description or brand that is not a string fails in the `trim` transform (a 500); otherwise accepted exactly when title, description, price, categoryId and stock pass their rules; each failed field is reported; an accepted body holds trimmed texts and positive numbers equal to the inputs |
| ProductDto.ValidateUpdate | src/product/dto/update-product.dto.ts:1-4 | a present text field that is not a string fails in the transform; otherwise every field is optional, a present field must pass its create rule and each failed field is reported; an accepted patch holds exactly the present fields, trimmed or converted, with the inputs' values |
| ProductDto.NumericTitleFailsTransform | src/product/dto/create-product.dto.ts:18 | a title that is not a string fails the transform, before any rule, whatever the other fields hold |
| ProductDto.CreateBodyIsValidUpdate | src/product/dto/update-product.dto.ts:4 | every valid create body is a valid update body |
| Entities.FirstKey | src/user/user.service.ts:180 | the smallest key whose row matches, or none when no row does |
| Entities.UserByEmail | src/user/entities/user.entity.ts:21-22 | `findOneBy({email})` finds the row with that email, and only misses when there is none |
| Entities.InsertUser | src/user/entities/user.entity.ts:8-35 | a new user gets the next id; the schema holds when the email is new |
| Entities.InsertCategory | src/category/entities/category.entity.ts:7-25 | a new category gets the next id; the schema holds for a new name and an existing creator |
| Entities.InsertProduct | src/product/entities/product.entity.ts:40-61 | a new product gets the next id; the schema holds when creator and category exist |
| Entities.DeleteProduct | src/product/entities/product.entity.ts:7-84 | deleting a product keeps the schema and leaves the other tables alone |
| Entities.DeleteUserCascade | src/category/entities/category.entity.ts:21-25 | deleting a user removes exactly that user's categories, then exactly the products of that user or of a removed category; the kept rows, the OTP table and the id counters are unchanged, and the schema still holds |
| Entities.DeleteUnreferencedUser | src/category/entities/category.entity.ts:21-25 | a user with no categories and no products is deleted alone |
| Entities.DeleteCategoryCascade | src/product/entities/product.entity.ts:43-47 | deleting a category removes exactly its products; the kept products, users, OTP rows and id counters are unchanged |
| ProductOrder.ParseOrder | src/product/product.service.ts:53-66 | "cheapest" and "expensive" select price order; anything else is newest first |
| ProductOrder.ConsSorted | src/product/product.service.ts:53-66 | a head that precedes every element keeps a list sorted |
| ProductOrder.HeadPrecedes | src/product/product.service.ts:53-66 | the head of a sorted list precedes every later element |
| ProductOrder.Insert | src/product/product.service.ts:53-66 | insertion keeps the order and adds exactly one element |
| ProductOrder.Sort | src/product/product.service.ts:53-66 | the result is ordered and a permutation of the input |
| ProductOrder.Page | src/product/product.service.ts:90-91 | `skip`/`take` give the window starting at skip, at most take long; take 0 means no limit |
| ProductOrder.PageSorted | src/product/product.service.ts:90-91 | a window of a sorted listing is sorted |
| ProductOrder.Rows | src/product/product.service.ts:67-92 | the table rows with ids in a range, each exactly once |
| ProductOrder.RowsCoverTable | src/product/product.service.ts:67-92 | every row of the table is listed, and the count is the table size |
| UserService.OnModuleInit | src/user/user.service.ts:43-61 | with an owner present nothing happens; otherwise exactly one OWNER with the configured data is created, or the duplicate email is rethrown as a 500 |
| UserService.OnModuleInitIdempotent | src/user/user.service.ts:45-48 | a second start-up changes nothing |
| UserService.ExactlyOneOwner | src/user/user.service.ts:43-61 | after a successful start-up there is exactly one owner |
| UserService.FindOneAsWritten | src/user/user.service.ts:78-93 | as written: throws NotFound exactly when the user exists |
| UserService.FindOne | src/user/user.service.ts:78-93 | corrected: returns the user's view exactly when it exists, NotFound otherwise |
| UserService.FindOneInverted | src/user/user.service.ts:90 | the as-written lookup fails exactly where the intended one succeeds |
| UserService.FindOneAsWrittenRejectsExistingUser | src/user/user.service.ts:90 | a store holding user 1 gets "1 id'lik user topilmadi" for id 1 |
| UserService.SigninAdmin | src/user/user.service.ts:95-120 | corrected: an unknown email and a wrong password give distinct 400s; success exactly on a matching password, returning the claims and the admin cookie |
| UserService.SignIn | src/user/user.service.ts:176-205 | corrected: succeeds exactly on a known email with a matching password; returns {id, role} with the user cookie; every failure is the same 400; the auth service's signIn (auth.service.ts lines 60-91) is the same code |
| UserService.SignInFailuresAlike | src/user/user.service.ts:182-190 | corrected: an unknown email and a wrong password cannot be told apart |
| UserService.SignInIgnoresActivation | src/user/user.service.ts:176-205 | the result does not depend on `isActive` |
| UserService.SigninAdminAsWritten | src/user/user.service.ts:95-120 | as written: never succeeds; an unknown email is the 400, a known one a 500 from comparing against a hash that was not loaded |
| UserService.SignInAsWritten | src/user/user.service.ts:176-205 | as written (and in auth.service.ts lines 60-91): never succeeds; an unknown email is the 400, a known one a 500 |
| UserService.SignInAsWrittenRejectsRightPassword | src/user/entities/user.entity.ts:24-25 | the right password of a stored account signs in when intended but gets a 500 as written, which also tells known and unknown emails apart |
| UserService.AuthUserProfile | src/user/user.service.ts:207-233 | no token is 401, a vanished account is 404, otherwise the caller's own profile; the auth service's copy (auth.service.ts lines 93-119) is the same code |
| UserService.SignUpCached | src/user/user.service.ts:122-155 | a taken email is 400 and changes nothing; otherwise an inactive USER with the hashed password is stored and the code cached under the email |
| UserService.ConfirmOtp | src/user/user.service.ts:157-174 | an unknown email and a wrong or absent code give their 400s; success exactly when the cached code matches |
| UserService.SignUpThenConfirm | src/user/user.service.ts:122-174 | after sign-up the mailed code confirms and any other code is refused |
| UserService.ApplyProfile | src/user/user.service.ts:247 | present patch fields replace stored ones; id, role and activation are kept |
| UserService.WriteUser | src/user/user.service.ts:247-253 | an empty patch or an email held by another user fails and changes nothing; otherwise exactly that row is replaced |
| UserService.UpdateUser | src/user/user.service.ts:235-265 | unknown id 404; the owner 403; success writes the patched row and returns its profile |
| UserService.UpdateUserRole | src/user/user.service.ts:267-287 | unknown id 404; otherwise profile fields and role are written, with no owner check, and the reply is the stored row without its password, `isActive` included |
| UserService.DeleteUser | src/user/user.service.ts:289-302 | unknown id 404; otherwise the user and what cascades from it are removed |
| UserService.OwnerDemotable | src/user/user.service.ts:267-287 | the owner cannot be edited, yet can be demoted to USER through the role update |
| AuthService.MailFailureText | src/common/mail/mail.service.ts:8-18 | the message of what `sendOtp` rethrows: the response's string message, "Http Exception" for any other truthy response, otherwise the error's JSON text or "Internal Server Error" |
| AuthService.MailerMessageNotUsed | src/common/mail/mail.service.ts:15-17 | an error without a response is described by its JSON alone, whatever its own message |
| AuthService.NewOtp | src/auth/auth.service.ts:121-160 | the email ends with exactly one fresh unverified row expiring 5 minutes after now; other emails' rows are kept; success exactly when the mail goes out, with a key naming the row; otherwise 503 whose description is the message of the exception `sendOtp` rethrew |
| AuthService.SignUp | src/auth/auth.service.ts:40-58 | a taken email is 400 and changes nothing; otherwise an inactive USER is stored, the email's code rows are replaced by one fresh row while other rows and tables are kept, and the reply is the key naming that row, or a 503 when the mail fails |
| AuthService.Admit | src/auth/auth.service.ts:162-184 | the ordered checks: undecodable key, key for another email, unknown row, used, expired, wrong code, unknown user; success exactly when none applies |
| AuthService.VerifyOtpAsWritten | src/auth/auth.service.ts:162-193 | as written: marks the row verified and answers "activated" but never changes any user |
| AuthService.VerifyOtp | src/auth/auth.service.ts:162-193 | corrected: on success the row is verified and the user is active; failures change nothing |
| AuthService.VerifyOtpAsWrittenNeverActivates | src/auth/auth.service.ts:185 | after a successful as-written verification the user row is unchanged, while the corrected one activates it |
| AuthService.IssueThenVerify | src/auth/auth.service.ts:121-193 | an issued code verifies within its lifetime and activates the user; reusing it is refused as already checked |
| AuthService.KeyBoundToEmail | src/auth/auth.service.ts:166-169 | a key presented with another email is refused and changes nothing |
| AuthService.ExpiryBoundary | src/auth/auth.service.ts:130-131 | the code is accepted at exactly 5 minutes and refused a millisecond later |
| AuthService.ReissueRevokesOldKey | src/auth/auth.service.ts:132-138 | a new code for the same email makes the old key name no row |
| AuthService.ActiveUserAsWritten | src/auth/auth.service.ts:195-211 | as written: always throws, NotFound for an existing user and a null read otherwise |
| AuthService.ActiveUser | src/auth/auth.service.ts:195-211 | corrected: an existing user is set active and its view returned; otherwise NotFound |
| AuthService.ActiveUserIdempotent | src/auth/auth.service.ts:195-211 | activating twice is activating once |
| CategoryService.NameErrors | src/category/category.service.ts:26-31 | no errors exactly when the name is free; otherwise the one collision message |
| CategoryService.Create | src/category/category.service.ts:24-44 | a taken name is a 409 listing it; success exactly for a free name and an existing creator, storing the row with the next id |
| CategoryService.OwnershipOnValidStore | src/category/category.service.ts:95-101 | in a store that keeps its schema the creator is loaded, so the ownership check compares the stored creator id |
| CategoryService.FindOne | src/category/category.service.ts:67-86 | exactly when the category exists, its id, name and its creator's id, fname and email (the creator loaded whenever the store keeps its schema); otherwise "<id> id'lik category topilmadi" |
| CategoryService.Update | src/category/category.service.ts:88-128 | 404, then 403 for another admin's category (a TypeError when no creator was loaded), then 304 with the loaded view for the same name, then 409 for a taken name; otherwise only the name changes and the reply is the view with the new name |
| CategoryService.Remove | src/category/category.service.ts:130-148 | 404, then 403 for another admin's category; otherwise the category and its products are removed, and the reply is the loaded view without its id |
| CategoryService.OwnershipBeforeSameName | src/category/category.service.ts:95-104 | the ownership check comes before the 304 shortcut |
| CategoryService.OnlyAdminsAreConfined | src/category/category.service.ts:95-101 | a non-admin is never refused for ownership |
| CategoryService.SecondCreateConflicts | src/category/category.service.ts:24-31 | creating the same name twice gives a 409 with the name's message |
| CategoryService.RenameRoundTrip | src/category/category.service.ts:113-120 | renaming and renaming back restores the store |
| ProductService.Create | src/product/product.service.ts:27-44 | an unknown category is 404; success stores the row with the requester, `now` and the uploaded images or none |
| ProductService.FindAll | src/product/product.service.ts:46-104 | defaults skip 0 and limit 30; the total is the table size; the items are the skip/take window of an ordering of exactly the table's rows |
| ProductService.FullListingCoversTable | src/product/product.service.ts:67-92 | with skip 0 and no limit every product is listed, and the count is the table size |
| ProductService.PageFromTable | src/product/product.service.ts:67-92 | every listed item is a table row |
| ProductService.DefaultListingNewestFirst | src/product/product.service.ts:47-56 | with no query the first item is the newest product |
| ProductService.UnknownOrderIsLatest | src/product/product.service.ts:53-66 | an unrecognised order lists like "latest" |
| ProductService.FindOne | src/product/product.service.ts:107-132 | the product exactly when it exists, otherwise "<id> id'lik product topilmadi" |
| ProductService.Overlay | src/product/product.service.ts:155 | every field of the patch replaces the stored one, images included; id, creator and timestamp are kept |
| ProductService.OverlayKeepingImages | src/product/product.service.ts:155-158 | as the overlay, except that an empty image list keeps the stored images |
| ProductService.SavedAsWritten | src/product/product.service.ts:155-162 | the saved row is the overlay except for the category, which stays the one the loaded `category` relation names |
| ProductService.UpdateAsWritten | src/product/product.service.ts:142-170 | as written: a patch without categoryId always fails the category lookup; success writes the overlay with the stored category kept |
| ProductService.UpdateAsWrittenKeepsCategory | src/product/product.service.ts:155-162 | as written, a PATCH to another existing category succeeds yet leaves the product in its old one; corrected, it moves |
| ProductService.Update | src/product/product.service.ts:142-170 | corrected: 404, 403 for another admin's product, 404 for an unknown new category; otherwise the overlay that keeps images |
| ProductService.UpdateWithoutUploadWipesImages | src/product/product.controller.ts:123-128 | as written, a PATCH without files empties the image list; corrected, it keeps it |
| ProductService.UpdateWithoutCategoryFails | src/product/product.service.ts:160 | as written, omitting categoryId fails; corrected, it keeps the category |
| ProductService.EmptyPatchKeepsProduct | src/product/product.service.ts:155-158 | an empty patch changes nothing |
| ProductService.Remove | src/product/product.service.ts:172-199 | 404, then 403 for another admin's product; otherwise the row is deleted and the file summary for its images returned |
| ProductService.RemoveAll | src/product/product.service.ts:201-209 | the product table is emptied and the old count returned; users, categories and OTP rows are unchanged |
| ProductService.OwnerUnrestricted | src/product/product.service.ts:147-153 | a non-admin can always update and remove an existing product |
| ProductService.CreateThenFind | src/product/product.service.ts:27-132 | a created product is found by its id and the total grows by one |

## Left out

- Controllers, modules, `main.ts` and the `goodResponse` reply wrapper are not modelled, nor are the message texts of successful replies. The model's reply value is the data a service puts in its reply, with the exceptions noted in the next lines. The category replies carry the `select` projection, and `remove`'s reply lacks the id, which TypeORM clears on the object it removes.
- ProductService.FindOne: the reply is the whole stored row. The source's `select` leaves out `categoryId`, `userId` and `createdAt`, and nests `user` (id, fname, email) and `category` (id, name).
- ProductService.FindAll: the items are whole stored rows; the source's `select` shapes each item as in `findOne`.
- The base entity's timestamps on users are not modelled, so no reply carries them.
- Hashing (`bcrypt`), JWT signing and verification, and the crypto helper that encodes OTP details are parameters. An encoded key is `Issued(details)` or `Forged(text)`.
- Random OTP codes, random stored file names, `Date.now()`, mail delivery and `fs.unlink` results are inputs.
- The cache's time-to-live is not modelled: an entry stays until replaced.
- Concurrency: the delete-then-insert in `newOtp` and the check-then-save in `create` are modelled as atomic.
- Decimal prices are modelled as `real`, and `Number(...)` as a finite real or not-finite.
- Query-string conversion in `findAll` is left out. `skip` and `limit` are optional naturals, negative values are not modelled, and `take` 0 means no limit.
- Rows tied on the sort key keep id order. The database's order for ties is unspecified.
- `JSON.stringify` of an error is the `stringify` parameter, or the `json` field of a mail failure.
- The user and category `findAll` endpoints are not modelled. They are plain reads.
- `RolesGuard`, `OwnerGuard`, `update-user.dto` and `update-category.dto` are not part of this model. The category name is taken as a required string.
- `auth.controller.ts` calls `updateUserStatusById`, which no service defines; that route is not modelled.
- UserService.WriteUser: the "User with ID X not updated" branch of `updateUser` is unreachable when calls run one at a time, so it is not modelled.
- UserService.UpdateUser: a password in the patch is written as given. The source does not hash it either.
- UserService.SigninAdmin: the role is not checked, matching the source.
- UserService.SignIn: not gated on `isActive`, matching the code, which never checks it.
- AuthService.VerifyOtp: the second `!user` check after the save is dead code and is not modelled.
- MulterConfig.StoredName: the random stem is any non-empty slash- and dot-free string. `Math.round(Math.random() * 16)` can produce 16, which renders as "10", so the source's names are 32 to 64 hex digits.
- Text.ToLower: only ASCII capitals are lowered. Extensions outside ASCII never match the allowed list either way.
- RoleGuards.SelfGuard: `Number(params.id)` is an optional integer, with NaN as `None`.
- ProductDto.ValidateCreate: `@MinLength(3)` counts as validator.js's `isLength` does, UTF-16 code units less surrogate pairs and variation selectors. Dafny strings hold Unicode scalar values, so that count is the number of characters other than U+FE0E and U+FE0F; unpaired surrogates, which a Dafny string cannot hold, are not modelled. The same holds for ProductDto.ValidateUpdate.
- FileDelete.RemoveFilesSafe: the file system is the function `unlink(i, path)`, the outcome of the i-th concurrent call. The order in which the calls reach the disk is not modelled.
- FileDelete.DotDotEscapesBase: `path.basename("..")` is "..", so the unlink target is the parent of the upload directory. Stored names never have this form, so no corrected variant is given.

## Findings

| source | as written | input that shows it | evidently intended | confidence | as-written member | corrected member |
|---|---|---|---|---|---|---|
| src/user/user.service.ts:90 | `if (user) throw new NotFoundException(...)` | a store holding user 1, `findOne(1)` | throw when the user is missing | not executed | UserService.FindOneAsWritten | UserService.FindOne |
| src/auth/auth.service.ts:185 | `save({ ...user, is_active: true })` writes a property that is not a column | any successful verification | set `isActive` to true | not executed | AuthService.VerifyOtpAsWritten | AuthService.VerifyOtp |
| src/product/product.controller.ts:123-128 | `images: files?.map(...) \|\| []` always overrides the stored images | PATCH of a product with images, without files | keep the stored images when nothing is uploaded | not executed | ProductService.UpdateAsWritten | ProductService.Update |
| src/product/product.service.ts:160 | `findOne(Number(categoryId))` with `categoryId` undefined looks up NaN | PATCH with only a title | check the category only when one is given | not executed | ProductService.UpdateAsWritten | ProductService.Update |
| src/auth/auth.service.ts:195-211 | `activeUser` calls the inverted `findOne` | `activeUser(1)` with user 1 present | activate an existing user | not executed | AuthService.ActiveUserAsWritten | AuthService.ActiveUser |
| src/user/user.service.ts:180 | `findOne({ where: { email } })` loads the row without `password`, a `select: false` column (user.entity.ts:24), so `compare(password, undefined)` rejects; the same code is in auth.service.ts:64 | a stored user signing in with its real password | read the password column for the comparison | not executed | UserService.SignInAsWritten | UserService.SignIn |
| src/user/user.service.ts:98 | the same load without `password` before `decrypt` at line 104 | a stored admin signing in with its real password | read the password column for the comparison | not executed | UserService.SigninAdminAsWritten | UserService.SigninAdmin |
| src/product/product.service.ts:155-162 | `{ ...product, ...updateProductDto }` keeps the `category` object `findOne` loaded, and `save` takes the join column from it, not from the new `categoryId` | PATCH of a product in category 1 with `categoryId` 2, both categories present | move the product to the given category | not executed | ProductService.UpdateAsWritten | ProductService.Update |

=== FILE: auth_guard.dfy ===
/**
 * The authentication guard (common/guard/authGuard.ts): reads the
 * Authorization header, takes a bearer token from it, verifies it and
 * attaches the payload to the request. The JWT check itself is a parameter.
 */
module AuthGuard {
  import opened Wrappers
  import opened Http
  import opened Roles
  import opened Text

  /** What `jwtService.verify` does with a token: returns the payload, or throws an error with this `name`. */
  datatype Verification = Verified(payload: Payload) | VerifyFailed(errorName: string)

  const HEADER_NOT_FOUND := "Authorization header not found"
  const INVALID_FORMAT := "Invalid token format"

  /** `const [bearer, token] = auth.split(" ")`, accepted when `bearer` is "Bearer" and `token` is non-empty. */
  function BearerToken(auth: string): (token: Option<string>)
    ensures token.Some? ==> token.value != "" && ' ' !in token.value
  {
    var parts := Split(auth, ' ');
    if parts[0] == "Bearer" && |parts| > 1 && parts[1] != "" then Some(parts[1]) else None
  }

  /**
   * The message a failed verification is reported with: the two error
   * classes `jsonwebtoken` throws get their own text, anything else the
   * generic one.
   */
  function VerifyFailureMessage(errorName: string): (m: string)
    ensures errorName == "TokenExpiredError" ==> m == "Token expired"
    ensures errorName == "JsonWebTokenError" ==> m == "Invalid token"
    ensures errorName != "TokenExpiredError" && errorName != "JsonWebTokenError" ==> m == "Unauthorized"
  {
    if errorName == "TokenExpiredError" then "Token expired"
    else if errorName == "JsonWebTokenError" then "Invalid token"
    else "Unauthorized"
  }

  /**
   * `canActivate`: `Ok(p)` means the guard set `req.user = p` and returned
   * true. It never returns false: every refusal is an UnauthorizedException.
   */
  function CanActivate(header: Option<string>, verify: string -> Verification): (r: Outcome<Payload>)
    ensures r.Throw? ==> r.exc.HttpExc? && r.exc.status == Some(UNAUTHORIZED)
    ensures (header.None? || header.value == "") ==> r == Throw(Unauthorized(HEADER_NOT_FOUND))
    ensures header.Some? && header.value != "" && BearerToken(header.value).None? ==>
              r == Throw(Unauthorized(INVALID_FORMAT))
    ensures r.Ok? <==> header.Some? && BearerToken(header.value).Some?
                       && verify(BearerToken(header.value).value).Verified?
    ensures r.Ok? ==> r.value == verify(BearerToken(header.value).value).payload
    ensures header.Some? && header.value != "" && BearerToken(header.value).Some?
            && verify(BearerToken(header.value).value).VerifyFailed? ==>
              r == Throw(Unauthorized(VerifyFailureMessage(verify(BearerToken(header.value).value).errorName)))
  {
    if header.None? || header.value == "" then
      Throw(Unauthorized(HEADER_NOT_FOUND))
    else
      match BearerToken(header.value)
      case None => Throw(Unauthorized(INVALID_FORMAT))
      case Some(token) =>
        match verify(token)
        case Verified(p) => Ok(p)
        case VerifyFailed(name) => Throw(Unauthorized(VerifyFailureMessage(name)))
  }

  /**
   * A header "Bearer " + token, optionally followed by a space and anything
   * else, yields that token: only the second segment is used.
   */
  lemma BearerHeaderAccepted(token: string, rest: string)
    requires token != "" && ' ' !in token
    requires rest == "" || rest[0] == ' '
    ensures BearerToken("Bearer " + token + rest) == Some(token)
  {
    assert ' ' !in "Bearer";
    var auth := "Bearer " + token + rest;
    assert auth == "Bearer" + [' '] + (token + rest);
    SplitAtSep("Bearer", token + rest, ' ');
    if rest == "" {
      assert token + rest == token;
      SplitNoSep(token, ' ');
    } else {
      assert token + rest == token + [' '] + rest[1..];
      SplitAtSep(token, rest[1..], ' ');
    }
  }

  /** Conversely, an accepted header has exactly that shape. */
  lemma {:induction false} AcceptedHeaderShape(auth: string)
    requires BearerToken(auth).Some?
    ensures var token := BearerToken(auth).value;
            && |auth| >= 7 + |token|
            && auth[..7 + |token|] == "Bearer " + token
            && (|auth| == 7 + |token| || auth[7 + |token|] == ' ')
  {
    var parts := Split(auth, ' ');
    var token := parts[1];
    JoinSplit(auth, ' ');
    assert auth == parts[0] + [' '] + Join(parts[1..], ' ');
    var tail := Join(parts[1..], ' ');
    if |parts| == 2 {
      assert tail == token;
      assert auth == "Bearer " + token;
    } else {
      assert parts[1..][1..] == parts[2..];
      assert tail == token + [' '] + Join(parts[2..], ' ');
      assert auth == "Bearer " + token + ([' '] + Join(parts[2..], ' '));
    }
  }

  /** "Bearer" alone has no second segment. */
  lemma BareSchemeRejected()
    ensures BearerToken("Bearer") == None
  {
    SplitNoSep("Bearer", ' ');
  }

  /** "Bearer " has an empty second segment. */
  lemma EmptyTokenRejected()
    ensures BearerToken("Bearer ") == None
  {
    assert "Bearer " == "Bearer" + [' '] + "";
    SplitAtSep("Bearer", "", ' ');
  }

  /** With two spaces the second segment is empty, whatever follows. */
  lemma DoubleSpaceRejected(rest: string)
    ensures BearerToken("Bearer  " + rest) == None
  {
    assert "Bearer  " + rest == "Bearer" + [' '] + ("" + [' '] + rest);
    SplitAtSep("Bearer", "" + [' '] + rest, ' ');
    SplitAtSep("", rest, ' ');
  }

  /** The scheme name is compared case-sensitively. */
  lemma LowerCaseSchemeRejected(token: string)
    ensures BearerToken("bearer " + token) == None
  {
    assert "bearer " + token == "bearer" + [' '] + token;
    SplitAtSep("bearer", token, ' ');
  }
}

=== FILE: auth_service.dfy ===
/**
 * The OTP account lifecycle of the auth service (auth/auth.service.ts):
 * sign-up, issuing a one-time code, verifying it, and the owner's manual
 * activation. The random code, the clock (milliseconds) and the mail
 * delivery outcome are parameters. The verification key is what the
 * encryption helper produces from `{timestamp, email, otp_id}`; that helper
 * is not part of this model, so a key is either one it issued or text it
 * cannot decode.
 */
module AuthService {
  import opened Wrappers
  import opened Roles
  import opened Http
  import opened Text
  import opened Entities
  import UserService
  import ErrorCatch

  /** The JSON the verification key encrypts. */
  datatype Details = Details(timestamp: int, email: string, otpId: int)

  /** A verification key: one `encode` produced, or text `decode` rejects. */
  datatype Key = Issued(details: Details) | Forged(text: string)

  /** `{message, verificationKey}`. */
  datatype OtpSent = OtpSent(message: string, key: Key)

  /** `addMinutesToDate(now, 5)`, in milliseconds. */
  const OTP_TTL := 5 * 60 * 1000

  const OTP_SENT := "OTP emailga yuborildi"
  const MAIL_FAILED := "Emailga xat yuborishda xatolik"
  const ACTIVATED := "\U{1F389} Tabriklayman, siz active bo'ldingiz"

  /** What `decode` followed by `JSON.parse` throws on a key it did not issue. */
  const UNDECODABLE := PlainErr("SyntaxError", "verification key could not be decoded", RespNone)

  /** A failed delivery: the error the mailer threw, and the text `JSON.stringify` gives for it. */
  datatype MailFailure = MailFailure(err: Thrown, json: string)

  /** The mailer's error carries an object `response` whose `message` is a string. */
  predicate HasResponseText(err: Thrown) {
    err.response.RespObject? && err.response.message.Some? && err.response.message.value.MsgText?
  }

  /**
   * The `message` of the exception `sendOtp` rejects with. `sendOtp` passes
   * the mailer's error to `errorCatch`, which rethrows it as a plain
   * HttpException built from `response.message` when the error has a truthy
   * `response`, and otherwise as an InternalServerErrorException holding the
   * error's JSON text (its default label when that text is empty).
   */
  function MailFailureText(f: MailFailure): (t: string)
    ensures HasResponseText(f.err) ==> t == f.err.response.message.value.text
    ensures RespTruthy(f.err.response) && !HasResponseText(f.err) ==> t == "Http Exception"
    ensures !RespTruthy(f.err.response) && f.json != "" ==> t == f.json
    ensures !RespTruthy(f.err.response) && f.json == "" ==> t == "Internal Server Error"
  {
    ExceptionMessage(ErrorCatch.ErrorCatch<()>(f.err, f.json).exc.response)
  }

  /** The mailer's own error message never reaches the description: an error without a response is described by its JSON alone. */
  lemma MailerMessageNotUsed(name: string, m1: string, m2: string, json: string)
    ensures MailFailureText(MailFailure(PlainErr(name, m1, RespNone), json))
            == MailFailureText(MailFailure(PlainErr(name, m2, RespNone), json))
  {
  }

  /** The rows of `otps` whose email is `email`. */
  function OtpIdsFor(otps: map<int, OtpRow>, email: string): set<int> {
    set k | k in otps && otps[k].email == email
  }

  /**
   * `newOtp`: deletes every code row for the email, saves one fresh,
   * unverified row expiring five minutes after `now`, and returns a key that
   * names the row. When the mail cannot be sent the row stays saved and
   * ServiceUnavailable is thrown; its description is the message of the
   * exception `sendOtp` rethrew, `MailFailureText`.
   */
  function NewOtp(db: Db, email: string, code: string, now: int, mailError: Option<MailFailure>): (r: Step<OtpSent>)
    ensures var id := db.nextOtpId;
            && OtpIdsFor(r.db.otps, email) == {id}
            && r.db.otps[id] == OtpRow(id, email, code, now + OTP_TTL, false)
            && (Valid(db) ==> forall k :: k in db.otps && db.otps[k].email != email <==> k in r.db.otps && k != id)
            && (forall k :: k in r.db.otps && k != id ==> k in db.otps && r.db.otps[k] == db.otps[k])
    ensures r.db.users == db.users && r.db.categories == db.categories && r.db.products == db.products
    ensures r.out.Ok? <==> mailError.None?
    ensures r.out.Ok? ==> r.out.value == OtpSent(OTP_SENT, Issued(Details(now, email, db.nextOtpId)))
    ensures mailError.Some? ==> r.out.exc == ServiceUnavailable(MAIL_FAILED, MailFailureText(mailError.value))
    ensures Valid(db) ==> Valid(r.db)
  {
    var kept := map k | k in db.otps && db.otps[k].email != email :: db.otps[k];
    var id := db.nextOtpId;
    var otps := kept[id := OtpRow(id, email, code, now + OTP_TTL, false)];
    var db' := db.(otps := otps, nextOtpId := id + 1);
    assert OtpIdsFor(otps, email) == {id};
    match mailError
    case Some(f) => Step(db', Throw(ServiceUnavailable(MAIL_FAILED, MailFailureText(f))))
    case None => Step(db', Ok(OtpSent(OTP_SENT, Issued(Details(now, email, id)))))
  }

  /**
   * `signUp`: a duplicate email throws and changes nothing; otherwise an
   * inactive USER is saved and the reply is `newOtp`'s for that email.
   */
  function SignUp(db: Db, dto: UserService.SignUpDto, hash: string -> string, code: string, now: int,
                  mailError: Option<MailFailure>): (r: Step<OtpSent>)
    ensures UserByEmail(db, dto.email).Some? ==>
              r.db == db && Threw(r.out, BAD_REQUEST, "Email " + dto.email + " already exists")
    ensures UserByEmail(db, dto.email).None? ==>
              && r.db.users == db.users[db.nextUserId := User(db.nextUserId, dto.fname, dto.lname, dto.address,
                                                              dto.email, hash(dto.password), USER, false)]
              && OtpIdsFor(r.db.otps, dto.email) == {db.nextOtpId}
              && r.db.otps[db.nextOtpId] == OtpRow(db.nextOtpId, dto.email, code, now + OTP_TTL, false)
              && (forall k :: k in r.db.otps && k != db.nextOtpId ==> k in db.otps && r.db.otps[k] == db.otps[k])
              && (Valid(db) ==> forall k :: k in db.otps && db.otps[k].email != dto.email <==>
                                            k in r.db.otps && k != db.nextOtpId)
              && r.db.categories == db.categories && r.db.products == db.products
              && (r.out.Ok? <==> mailError.None?)
              && (r.out.Ok? ==> r.out.value == OtpSent(OTP_SENT, Issued(Details(now, dto.email, db.nextOtpId))))
              && (mailError.Some? ==> r.out.exc == ServiceUnavailable(MAIL_FAILED, MailFailureText(mailError.value)))
    ensures Valid(db) ==> Valid(r.db)
  {
    if UserByEmail(db, dto.email).Some? then Step(db, Throw(BadRequest("Email " + dto.email + " already exists")))
    else
      var db' := InsertUser(db, User(0, dto.fname, dto.lname, dto.address, dto.email, hash(dto.password), USER, false));
      NewOtp(db', dto.email, code, now, mailError)
  }

  /**
   * The checks of `verifyOtp`, in order: the key decodes, it was issued for
   * this email, its row exists, is not yet verified, has not expired (a row
   * is still good at exactly its expiration time), and holds this code; then
   * the account must exist. The first failing check decides the error.
   */
  function Admit(db: Db, key: Key, email: string, otp: string, now: int): (r: Outcome<User>)
    ensures key.Forged? ==> r == Throw(UNDECODABLE)
    ensures key.Issued? && key.details.email != email ==> Threw(r, BAD_REQUEST, "OTP bu eamilga yuborilmagan")
    ensures key.Issued? && key.details.email == email && key.details.otpId !in db.otps ==>
              Threw(r, BAD_REQUEST, "Bunday OTP yo'q")
    ensures key.Issued? && key.details.email == email && key.details.otpId in db.otps ==>
              var row := db.otps[key.details.otpId];
              && (row.verified ==> Threw(r, BAD_REQUEST, "OTP avval tekshirilgan"))
              && (!row.verified && row.expiration < now ==> Threw(r, BAD_REQUEST, "Bu OTP'ning vaqti tugagan"))
              && (!row.verified && now <= row.expiration && row.otp != otp ==> Threw(r, BAD_REQUEST, "OTP mos emas"))
              && (!row.verified && now <= row.expiration && row.otp == otp && UserByEmail(db, email).None? ==>
                    Threw(r, NOT_FOUND, "User not found with email " + email))
    ensures r.Ok? <==> && key.Issued? && key.details.email == email && key.details.otpId in db.otps
                       && !db.otps[key.details.otpId].verified && now <= db.otps[key.details.otpId].expiration
                       && db.otps[key.details.otpId].otp == otp && UserByEmail(db, email).Some?
    ensures r.Ok? ==> r.value == UserByEmail(db, email).value
  {
    match key
    case Forged(_) => Throw(UNDECODABLE)
    case Issued(d) =>
      if d.email != email then Throw(BadRequest("OTP bu eamilga yuborilmagan"))
      else if d.otpId !in db.otps then Throw(BadRequest("Bunday OTP yo'q"))
      else if db.otps[d.otpId].verified then Throw(BadRequest("OTP avval tekshirilgan"))
      else if db.otps[d.otpId].expiration < now then Throw(BadRequest("Bu OTP'ning vaqti tugagan"))
      else if db.otps[d.otpId].otp != otp then Throw(BadRequest("OTP mos emas"))
      else match UserByEmail(db, email)
        case None => Throw(NotFound("User not found with email " + email))
        case Some(u) => Ok(u)
  }

  /** Marks the key's row verified. */
  function MarkVerified(db: Db, id: int): Db
    requires id in db.otps
  {
    db.(otps := db.otps[id := db.otps[id].(verified := true)])
  }

  /**
   * `verifyOtp` as written: the account is saved with an `is_active` key,
   * which is not a column (the column is `isActive`), so the account stays
   * as it was; only the row is marked verified.
   */
  function VerifyOtpAsWritten(db: Db, key: Key, email: string, otp: string, now: int): (r: Step<string>)
    ensures r.out.Ok? <==> Admit(db, key, email, otp, now).Ok?
    ensures r.out.Throw? ==> r.db == db && r.out.exc == Admit(db, key, email, otp, now).exc
    ensures r.db.users == db.users
    ensures r.out.Ok? ==> r.db == MarkVerified(db, key.details.otpId) && r.out.value == ACTIVATED
  {
    match Admit(db, key, email, otp, now)
    case Throw(e) => Step(db, Throw(e))
    case Ok(_) => Step(MarkVerified(db, key.details.otpId), Ok(ACTIVATED))
  }

  /** `verifyOtp` as intended: on success the account becomes active and the row verified; on failure nothing changes. */
  function VerifyOtp(db: Db, key: Key, email: string, otp: string, now: int): (r: Step<string>)
    ensures r.out.Ok? <==> Admit(db, key, email, otp, now).Ok?
    ensures r.out.Throw? ==> r.db == db && r.out.exc == Admit(db, key, email, otp, now).exc
    ensures r.out.Ok? ==> var u := Admit(db, key, email, otp, now).value;
                          && r.db.users == db.users[u.id := u.(isActive := true)]
                          && r.db.otps == db.otps[key.details.otpId := db.otps[key.details.otpId].(verified := true)]
                          && r.out.value == ACTIVATED
    ensures Valid(db) ==> Valid(r.db)
  {
    match Admit(db, key, email, otp, now)
    case Throw(e) => Step(db, Throw(e))
    case Ok(u) =>
      var db' := MarkVerified(db, key.details.otpId);
      Step(db'.(users := db'.users[u.id := u.(isActive := true)]), Ok(ACTIVATED))
  }

  /** The written `verifyOtp` reports success yet leaves an inactive account inactive; the intended one activates it. */
  lemma VerifyOtpAsWrittenNeverActivates(db: Db, key: Key, email: string, otp: string, now: int)
    requires Valid(db)
    requires Admit(db, key, email, otp, now).Ok?
    ensures var u := Admit(db, key, email, otp, now).value;
            && VerifyOtpAsWritten(db, key, email, otp, now).out == Ok(ACTIVATED)
            && VerifyOtpAsWritten(db, key, email, otp, now).db.users[u.id] == u
            && VerifyOtp(db, key, email, otp, now).db.users[u.id].isActive
  {
  }

  /**
   * The lifecycle round trip: a code issued by `newOtp` and presented with
   * the same email before its expiry activates an existing account; a second
   * attempt then fails as already verified.
   */
  lemma {:induction false} IssueThenVerify(db: Db, email: string, code: string, now: int, later: int)
    requires Valid(db) && UserByEmail(db, email).Some?
    requires now <= later <= now + OTP_TTL
    ensures var s := NewOtp(db, email, code, now, None);
            var v := VerifyOtp(s.db, s.out.value.key, email, code, later);
            && v.out == Ok(ACTIVATED)
            && v.db.users[UserByEmail(db, email).value.id].isActive
            && Threw(VerifyOtp(v.db, s.out.value.key, email, code, later).out, BAD_REQUEST, "OTP avval tekshirilgan")
  {
    var s := NewOtp(db, email, code, now, None);
    assert s.db.users == db.users;
    assert UserByEmail(s.db, email) == UserByEmail(db, email);
    var u := UserByEmail(db, email).value;
    assert Admit(s.db, s.out.value.key, email, code, later) == Ok(u);
    var v := VerifyOtp(s.db, s.out.value.key, email, code, later);
    assert v.db.otps[db.nextOtpId].verified;
  }

  /** A key names the email it was issued for: presenting it with any other email fails, even with the right code. */
  lemma KeyBoundToEmail(db: Db, email: string, other: string, code: string, now: int)
    requires other != email
    ensures var s := NewOtp(db, email, code, now, None);
            var v := VerifyOtp(s.db, s.out.value.key, other, code, now);
            v.db == s.db && Threw(v.out, BAD_REQUEST, "OTP bu eamilga yuborilmagan")
  {
  }

  /** Expiry is strict: a code is accepted at exactly its expiration time and refused one millisecond later. */
  lemma ExpiryBoundary(db: Db, email: string, code: string, now: int)
    requires Valid(db) && UserByEmail(db, email).Some?
    ensures var s := NewOtp(db, email, code, now, None);
            && VerifyOtp(s.db, s.out.value.key, email, code, now + OTP_TTL).out.Ok?
            && Threw(VerifyOtp(s.db, s.out.value.key, email, code, now + OTP_TTL + 1).out,
                         BAD_REQUEST, "Bu OTP'ning vaqti tugagan")
  {
    IssueThenVerify(db, email, code, now, now + OTP_TTL);
  }

  /** A later `newOtp` for the same email revokes the earlier key. */
  lemma {:induction false} ReissueRevokesOldKey(db: Db, email: string, code1: string, code2: string, t1: int, t2: int)
    ensures var s1 := NewOtp(db, email, code1, t1, None);
            var s2 := NewOtp(s1.db, email, code2, t2, None);
            Threw(VerifyOtp(s2.db, s1.out.value.key, email, code1, t1).out, BAD_REQUEST, "Bunday OTP yo'q")
  {
    var s1 := NewOtp(db, email, code1, t1, None);
    var s2 := NewOtp(s1.db, email, code2, t2, None);
    var id := db.nextOtpId;
    assert id in OtpIdsFor(s1.db.otps, email);
    assert id != s1.db.nextOtpId;
    assert id !in s2.db.otps;
  }

  // ----- activeUser -----

  /** What reading `isActive` off `null` throws. */
  const NULL_READ := PlainErr("TypeError", "Cannot read properties of null (reading 'isActive')", RespNone)

  /**
   * `activeUser` as written, on top of the written `findOne`: an existing
   * account makes `findOne` throw NotFound, a missing one yields `null`,
   * whose `isActive` cannot be read.
   */
  function ActiveUserAsWritten(db: Db, id: int): (r: Step<UserService.UserView>)
    ensures r.db == db && r.out.Throw?
    ensures id in db.users ==> Threw(r.out, NOT_FOUND, IntToString(id) + " id'lik user topilmadi")
    ensures id !in db.users ==> r.out.exc == NULL_READ
  {
    match UserService.FindOneAsWritten(db, id)
    case Throw(e) => Step(db, Throw(e))
    case Ok(_) => Step(db, Throw(NULL_READ))
  }

  /** `activeUser` on top of the intended `findOne`: NotFound for a missing id, otherwise the account is made active. */
  function ActiveUser(db: Db, id: int): (r: Step<UserService.UserView>)
    ensures r.out.Ok? <==> id in db.users
    ensures r.out.Throw? ==> r.db == db && Threw(r.out, NOT_FOUND, IntToString(id) + " id'lik user topilmadi")
    ensures r.out.Ok? ==> r.db == db.(users := db.users[id := db.users[id].(isActive := true)])
                          && r.out.value == UserService.View(db.users[id])
    ensures Valid(db) ==> Valid(r.db)
  {
    match UserService.FindOne(db, id)
    case Throw(e) => Step(db, Throw(e))
    case Ok(v) => Step(db.(users := db.users[id := db.users[id].(isActive := true)]), Ok(v))
  }

  /** Manual activation is idempotent. */
  lemma ActiveUserIdempotent(db: Db, id: int)
    requires id in db.users
    ensures var db1 := ActiveUser(db, id).db;
            ActiveUser(db1, id).db == db1
  {
    var db1 := ActiveUser(db, id).db;
    assert db1.users[id].isActive;
    assert db1.users[id := db1.users[id].(isActive := true)] == db1.users;
  }
}

=== FILE: category_service.dfy ===
/**
 * The category service (category/category.service.ts): names are unique,
 * and an ADMIN may only change or delete the categories they created; USER
 * and OWNER requesters skip that check. Failures are thrown directly.
 */
module CategoryService {
  import opened Wrappers
  import opened Roles
  import opened Http
  import opened Text
  import opened Entities
  import UniqueFields

  /** The creator's columns `findOne` selects through the `user` relation. */
  datatype Creator = Creator(id: int, fname: string, email: string)

  /** A category as `findOne` selects it; `user` is null when the relation finds no row. */
  datatype CategoryView = CategoryView(id: int, name: string, user: Option<Creator>)

  /** What `remove` replies with: the view it removed, whose primary key TypeORM has cleared. */
  datatype RemovedView = RemovedView(name: string, user: Option<Creator>)

  /** `goodResponse(status, ..., data)`: 200 with the saved view, or 304 with the loaded one. */
  datatype Reply = Reply(status: int, category: CategoryView)

  const NOT_MODIFIED := 304
  const OK := 200
  const UPDATE_FORBIDDEN := "Admin faqat o\U{2018}zi qo\U{2018}shgan category'ni yangilay oladi"
  const REMOVE_FORBIDDEN := "Admin faqat o\U{2018}zi qo\U{2018}shgan category'ni o\U{2018}chira oladi"

  /** The collision message `checkUniqueFields` gives for a category name. */
  function NameMessage(name: string): string {
    UniqueFields.Message(UniqueFields.Field("name", name), "category")
  }

  /** `checkUniqueFields(categoryRepo, {name}, "category")`. */
  function NameErrors(db: Db, name: string): (errors: seq<string>)
    ensures errors == [] <==> !NameTaken(db, name)
    ensures errors != [] ==> errors == [NameMessage(name)]
  {
    var fields := [UniqueFields.Field("name", name)];
    var errors := UniqueFields.CheckUniqueFields(fields, (f: UniqueFields.Field) => NameTaken(db, f.value), "category");
    if errors == [] then errors
    else
      assert |errors| == 1 && errors[0] == NameMessage(name);
      errors
  }

  /** The TypeError `data.user.id` throws when the creator relation came back null. */
  const NULL_CREATOR := PlainErr("TypeError", "Cannot read properties of null (reading 'id')", RespNone)

  /** The row `findOne` reads: the category's own columns and its creator's id, fname and email. */
  function ViewOf(db: Db, c: Category): CategoryView {
    var user := if c.userId in db.users then Some(Creator(db.users[c.userId].id, db.users[c.userId].fname,
                                                            db.users[c.userId].email))
                else None;
    CategoryView(c.id, c.name, user)
  }

  /** An ADMIN acting on a category whose loaded creator is someone else. */
  predicate ForeignAdmin(requester: Payload, v: CategoryView) {
    requester.role == ADMIN && v.user.Some? && v.user.value.id != requester.id
  }

  /** An ADMIN's ownership check reading `id` off a null creator. */
  predicate NullCreator(requester: Payload, v: CategoryView) {
    requester.role == ADMIN && v.user.None?
  }

  /** The ownership check lets the requester through: not an ADMIN, or the loaded creator. */
  predicate MayChange(requester: Payload, v: CategoryView) {
    requester.role != ADMIN || (v.user.Some? && v.user.value.id == requester.id)
  }

  /** In a store that keeps its schema the creator is always loaded, so the check compares the stored creator id. */
  lemma OwnershipOnValidStore(db: Db, id: int, requester: Payload)
    requires Valid(db) && id in db.categories
    ensures var c := db.categories[id];
            var u := db.users[c.userId];
            && ViewOf(db, c) == CategoryView(id, c.name, Some(Creator(c.userId, u.fname, u.email)))
            && !NullCreator(requester, ViewOf(db, c))
            && (ForeignAdmin(requester, ViewOf(db, c)) <==> requester.role == ADMIN && c.userId != requester.id)
  {
  }

  /**
   * `create`: a taken name is a Conflict listing the collision and saves
   * nothing; otherwise the category is saved with the requester as creator.
   * A requester whose account no longer exists breaks the foreign key.
   */
  function Create(db: Db, name: string, requester: Payload): (r: Step<Category>)
    ensures NameTaken(db, name) ==> r == Step(db, Throw(Conflict([NameMessage(name)])))
    ensures !NameTaken(db, name) && requester.id !in db.users ==> r == Step(db, Throw(FOREIGN_KEY_VIOLATION))
    ensures r.out.Ok? <==> !NameTaken(db, name) && requester.id in db.users
    ensures r.out.Ok? ==> var c := Category(db.nextCategoryId, name, requester.id);
                          r.out.value == c && r.db == db.(categories := db.categories[c.id := c], nextCategoryId := c.id + 1)
    ensures Valid(db) ==> Valid(r.db)
  {
    var errors := NameErrors(db, name);
    if |errors| > 0 then Step(db, Throw(Conflict(errors)))
    else if requester.id !in db.users then Step(db, Throw(FOREIGN_KEY_VIOLATION))
    else
      var db' := InsertCategory(db, Category(0, name, requester.id));
      Step(db', Ok(db'.categories[db.nextCategoryId]))
  }

  /** `findOne`: the selected view exactly when the id exists, NotFound otherwise. */
  function FindOne(db: Db, id: int): (r: Outcome<CategoryView>)
    ensures r.Ok? <==> id in db.categories
    ensures r.Ok? ==> r.value.name == db.categories[id].name && r.value.id == db.categories[id].id
    ensures r.Ok? ==> (r.value.user.Some? <==> db.categories[id].userId in db.users)
    ensures r.Ok? && r.value.user.Some? ==>
              var u := db.users[db.categories[id].userId];
              r.value.user.value == Creator(u.id, u.fname, u.email)
    ensures Valid(db) && r.Ok? ==> r.value.id == id && r.value.user.Some? && r.value.user.value.id == db.categories[id].userId
    ensures r.Throw? ==> Threw(r, NOT_FOUND, IntToString(id) + " id'lik category topilmadi")
  {
    if id in db.categories then Ok(ViewOf(db, db.categories[id]))
    else Throw(NotFound(IntToString(id) + " id'lik category topilmadi"))
  }

  /**
   * `update`: after the lookup and the ownership check, an unchanged name
   * answers 304 with the loaded view and saves nothing; a name held by any
   * category is a Conflict; otherwise only the name changes, and the reply
   * is the saved view.
   */
  function Update(db: Db, id: int, name: string, requester: Payload): (r: Step<Reply>)
    ensures r.out.Throw? || r.out.value.status == NOT_MODIFIED ==> r.db == db
    ensures id !in db.categories ==> Threw(r.out, NOT_FOUND, IntToString(id) + " id'lik category topilmadi")
    ensures id in db.categories && NullCreator(requester, ViewOf(db, db.categories[id])) ==> r.out == Throw(NULL_CREATOR)
    ensures id in db.categories && ForeignAdmin(requester, ViewOf(db, db.categories[id])) ==>
              Threw(r.out, FORBIDDEN, UPDATE_FORBIDDEN)
    ensures id in db.categories && MayChange(requester, ViewOf(db, db.categories[id])) ==>
              var c := db.categories[id];
              var v := ViewOf(db, c);
              && (c.name == name ==> r.out == Ok(Reply(NOT_MODIFIED, v)))
              && (c.name != name && NameTaken(db, name) ==> r.out == Throw(Conflict([NameMessage(name)])))
              && (c.name != name && !NameTaken(db, name) ==>
                    r.out == Ok(Reply(OK, v.(name := name)))
                    && r.db == db.(categories := db.categories[id := c.(name := name)]))
    ensures Valid(db) ==> Valid(r.db)
  {
    match FindOne(db, id)
    case Throw(e) => Step(db, Throw(e))
    case Ok(v) =>
      if requester.role == ADMIN && v.user.None? then Step(db, Throw(NULL_CREATOR))
      else if requester.role == ADMIN && v.user.value.id != requester.id then Step(db, Throw(Forbidden(UPDATE_FORBIDDEN)))
      else if v.name == name then Step(db, Ok(Reply(NOT_MODIFIED, v)))
      else
        var errors := NameErrors(db, name);
        if |errors| > 0 then Step(db, Throw(Conflict(errors)))
        else
          var c := db.categories[id];
          Step(db.(categories := db.categories[id := c.(name := name)]), Ok(Reply(OK, v.(name := name))))
  }

  /**
   * `remove`: after the lookup and the ownership check the category goes,
   * and its products with it; the reply is the loaded view without its id.
   */
  function Remove(db: Db, id: int, requester: Payload): (r: Step<RemovedView>)
    ensures r.out.Throw? ==> r.db == db
    ensures id !in db.categories ==> Threw(r.out, NOT_FOUND, IntToString(id) + " id'lik category topilmadi")
    ensures id in db.categories && NullCreator(requester, ViewOf(db, db.categories[id])) ==> r.out == Throw(NULL_CREATOR)
    ensures id in db.categories && ForeignAdmin(requester, ViewOf(db, db.categories[id])) ==>
              Threw(r.out, FORBIDDEN, REMOVE_FORBIDDEN)
    ensures r.out.Ok? <==> id in db.categories && MayChange(requester, ViewOf(db, db.categories[id]))
    ensures r.out.Ok? ==> var v := ViewOf(db, db.categories[id]);
                          r.out.value == RemovedView(v.name, v.user) && r.db == DeleteCategoryCascade(db, id)
    ensures Valid(db) ==> Valid(r.db)
  {
    match FindOne(db, id)
    case Throw(e) => Step(db, Throw(e))
    case Ok(v) =>
      if requester.role == ADMIN && v.user.None? then Step(db, Throw(NULL_CREATOR))
      else if requester.role == ADMIN && v.user.value.id != requester.id then Step(db, Throw(Forbidden(REMOVE_FORBIDDEN)))
      else Step(DeleteCategoryCascade(db, id), Ok(RemovedView(v.name, v.user)))
  }

  /** The ownership check comes first: a foreign ADMIN is refused even when the name would be unchanged. */
  lemma OwnershipBeforeSameName(db: Db, id: int, requester: Payload)
    requires id in db.categories && ForeignAdmin(requester, ViewOf(db, db.categories[id]))
    ensures Threw(Update(db, id, db.categories[id].name, requester).out, FORBIDDEN, UPDATE_FORBIDDEN)
  {
  }

  /** Whoever is not an ADMIN is never refused for ownership: an update can only fail on a name clash, a removal not at all. */
  lemma OnlyAdminsAreConfined(db: Db, id: int, name: string, requester: Payload)
    requires requester.role != ADMIN && id in db.categories
    ensures Update(db, id, name, requester).out.Throw? ==> db.categories[id].name != name && NameTaken(db, name)
    ensures Remove(db, id, requester).out.Ok?
  {
  }

  /** Creating the same name twice: the second attempt is a Conflict naming the value. */
  lemma {:induction false} SecondCreateConflicts(db: Db, name: string, a: Payload, b: Payload)
    requires Valid(db) && !NameTaken(db, name) && a.id in db.users
    ensures var s := Create(db, name, a);
            Create(s.db, name, b) == Step(s.db, Throw(Conflict(["'" + name + "' name'lik category mavjud"])))
  {
    var s := Create(db, name, a);
    assert s.db.categories[db.nextCategoryId].name == name;
    assert NameTaken(s.db, name);
    assert NameMessage(name) == "'" + name + "' name'lik category mavjud";
  }

  /** Renaming and renaming back restores the table. */
  lemma {:induction false} RenameRoundTrip(db: Db, id: int, name: string, requester: Payload)
    requires Valid(db) && id in db.categories && MayChange(requester, ViewOf(db, db.categories[id]))
    requires db.categories[id].name != name && !NameTaken(db, name)
    ensures var before := db.categories[id].name;
            var s := Update(db, id, name, requester);
            Update(s.db, id, before, requester).db == db
  {
    var c := db.categories[id];
    var s := Update(db, id, name, requester);
    assert s.db.categories[id] == c.(name := name);
    assert !NameTaken(s.db, c.name) by {
      forall k | k in s.db.categories
        ensures s.db.categories[k].name != c.name
      {
        if k != id {
          assert s.db.categories[k] == db.categories[k];
        }
      }
    }
    assert s.db.categories[id := c] == db.categories;
  }
}

=== FILE: entities.dfy ===
/**
 * The four tables (user, otp, category, product) as one immutable database
 * value. Every row carries its auto-increment id, which is also its key;
 * ids are handed out from per-table counters starting at 1, as the
 * `BaseEntity` primary key does.
 */
module Entities {
  import opened Wrappers
  import opened Roles
  import opened Http

  /** user.entity.ts. `password` holds the bcrypt hash. */
  datatype User = User(
    id: int,
    fname: string,
    lname: Option<string>,
    address: Option<string>,
    email: string,
    password: string,
    role: Role,
    isActive: bool)

  /** otp.entity.ts. `expiration` is `expiration_time` in milliseconds since the epoch. */
  datatype OtpRow = OtpRow(id: int, email: string, otp: string, expiration: int, verified: bool)

  /** category.entity.ts: `userId` is the creator. */
  datatype Category = Category(id: int, name: string, userId: int)

  /** product.entity.ts. `createdAt` comes from the base entity, in milliseconds. */
  datatype Product = Product(
    id: int,
    title: string,
    description: string,
    price: real,
    categoryId: int,
    userId: int,
    images: seq<string>,
    stock: int,
    brand: Option<string>,
    createdAt: int)

  datatype Db = Db(
    users: map<int, User>,
    otps: map<int, OtpRow>,
    categories: map<int, Category>,
    products: map<int, Product>,
    nextUserId: int,
    nextOtpId: int,
    nextCategoryId: int,
    nextProductId: int)

  /** The database after an operation, and what the operation returned or threw. */
  datatype Step<+T> = Step(db: Db, out: Outcome<T>)

  /** A fresh database: no rows, every counter at 1. */
  const EMPTY: Db := Db(map[], map[], map[], map[], 1, 1, 1, 1)

  /** Keys are the rows' own ids and lie below the table's counter. */
  predicate KeysWellFormed(db: Db) {
    && db.nextUserId >= 1 && db.nextOtpId >= 1 && db.nextCategoryId >= 1 && db.nextProductId >= 1
    && (forall k :: k in db.users ==> 1 <= k < db.nextUserId && db.users[k].id == k)
    && (forall k :: k in db.otps ==> 1 <= k < db.nextOtpId && db.otps[k].id == k)
    && (forall k :: k in db.categories ==> 1 <= k < db.nextCategoryId && db.categories[k].id == k)
    && (forall k :: k in db.products ==> 1 <= k < db.nextProductId && db.products[k].id == k)
  }

  /** The unique columns: `user.email` and `category.name`. */
  predicate UniqueColumns(db: Db) {
    && (forall a, b :: a in db.users && b in db.users && db.users[a].email == db.users[b].email ==> a == b)
    && (forall a, b :: a in db.categories && b in db.categories && db.categories[a].name == db.categories[b].name ==> a == b)
  }

  /** The foreign keys: a category's creator, a product's creator and category. */
  predicate ForeignKeys(db: Db) {
    && (forall k :: k in db.categories ==> db.categories[k].userId in db.users)
    && (forall k :: k in db.products ==> db.products[k].userId in db.users && db.products[k].categoryId in db.categories)
  }

  /** The constraints the database schema enforces. */
  predicate Valid(db: Db) {
    KeysWellFormed(db) && UniqueColumns(db) && ForeignKeys(db)
  }

  /** The error PostgreSQL reports, through TypeORM, for a row whose foreign key names no row. */
  const FOREIGN_KEY_VIOLATION := QueryFailed("insert or update violates foreign key constraint")

  /** The smallest key in `[i, n)` whose value satisfies `p`. */
  function FirstKey<V>(m: map<int, V>, p: V -> bool, i: int, n: int): (r: Option<int>)
    decreases n - i
    ensures r.Some? ==> i <= r.value < n && r.value in m && p(m[r.value])
    ensures r.Some? ==> forall k :: i <= k < r.value && k in m ==> !p(m[k])
    ensures r.None? ==> forall k :: i <= k < n && k in m ==> !p(m[k])
  {
    if i >= n then None
    else if i in m && p(m[i]) then Some(i)
    else FirstKey(m, p, i + 1, n)
  }

  /** `userRepo.findOne({where: {email}})`. */
  function UserByEmail(db: Db, email: string): (r: Option<User>)
    ensures r.Some? ==> r.value.email == email && exists k :: k in db.users && db.users[k] == r.value
    ensures Valid(db) && r.Some? ==> r.value.id in db.users && db.users[r.value.id] == r.value
    ensures Valid(db) ==> (r.None? <==> forall k :: k in db.users ==> db.users[k].email != email)
  {
    match FirstKey(db.users, (u: User) => u.email == email, 1, db.nextUserId)
    case Some(k) => Some(db.users[k])
    case None => None
  }

  /** Some category is named `name` (`categoryRepo.findOne({where: {name}})` finds a row). */
  predicate NameTaken(db: Db, name: string) {
    exists k :: k in db.categories && db.categories[k].name == name
  }

  /** Some user has role OWNER. */
  predicate HasOwner(db: Db) {
    exists k :: k in db.users && db.users[k].role == OWNER
  }

  /** The ids of the OWNER accounts. */
  function Owners(db: Db): set<int> {
    set k | k in db.users && db.users[k].role == OWNER
  }

  /** `userRepo.save` of a new row: the row gets the next id. */
  function InsertUser(db: Db, u: User): (r: Db)
    ensures r.users == db.users[db.nextUserId := u.(id := db.nextUserId)]
    ensures r.nextUserId == db.nextUserId + 1
    ensures r.otps == db.otps && r.categories == db.categories && r.products == db.products
    ensures Valid(db) && UserByEmail(db, u.email).None? ==> Valid(r)
  {
    db.(users := db.users[db.nextUserId := u.(id := db.nextUserId)], nextUserId := db.nextUserId + 1)
  }

  /** `categoryRepo.save` of a new row. */
  function InsertCategory(db: Db, c: Category): (r: Db)
    ensures r.categories == db.categories[db.nextCategoryId := c.(id := db.nextCategoryId)]
    ensures r.nextCategoryId == db.nextCategoryId + 1
    ensures r.users == db.users && r.otps == db.otps && r.products == db.products
    ensures Valid(db) && !NameTaken(db, c.name) && c.userId in db.users ==> Valid(r)
  {
    db.(categories := db.categories[db.nextCategoryId := c.(id := db.nextCategoryId)],
        nextCategoryId := db.nextCategoryId + 1)
  }

  /** `productRepo.save` of a new row. */
  function InsertProduct(db: Db, p: Product): (r: Db)
    ensures r.products == db.products[db.nextProductId := p.(id := db.nextProductId)]
    ensures r.nextProductId == db.nextProductId + 1
    ensures r.users == db.users && r.otps == db.otps && r.categories == db.categories
    ensures Valid(db) && p.userId in db.users && p.categoryId in db.categories ==> Valid(r)
  {
    db.(products := db.products[db.nextProductId := p.(id := db.nextProductId)],
        nextProductId := db.nextProductId + 1)
  }

  /** Deleting one product row; nothing references products. */
  function DeleteProduct(db: Db, id: int): (r: Db)
    ensures r.products == db.products - {id}
    ensures r.users == db.users && r.categories == db.categories && r.otps == db.otps
    ensures r.nextUserId == db.nextUserId && r.nextOtpId == db.nextOtpId
            && r.nextCategoryId == db.nextCategoryId && r.nextProductId == db.nextProductId
    ensures Valid(db) ==> Valid(r)
  {
    db.(products := db.products - {id})
  }

  /**
   * Deleting a user with the `ON DELETE CASCADE` foreign keys: the user's
   * categories go, and so does every product that was created by the user
   * or filed under one of those categories.
   */
  function DeleteUserCascade(db: Db, id: int): (r: Db)
    ensures id !in r.users && r.users == db.users - {id}
    ensures forall k :: k in r.categories <==> k in db.categories && db.categories[k].userId != id
    ensures forall k :: k in r.categories ==> r.categories[k] == db.categories[k]
    ensures forall k :: k in r.products <==>
              k in db.products && db.products[k].userId != id && db.products[k].categoryId in r.categories
    ensures forall k :: k in r.products ==> r.products[k] == db.products[k]
    ensures r.otps == db.otps
    ensures r.nextUserId == db.nextUserId && r.nextOtpId == db.nextOtpId
            && r.nextCategoryId == db.nextCategoryId && r.nextProductId == db.nextProductId
    ensures Valid(db) ==> Valid(r)
  {
    var cats := map k | k in db.categories && db.categories[k].userId != id :: db.categories[k];
    var prods := map k | k in db.products && db.products[k].userId != id && db.products[k].categoryId in cats :: db.products[k];
    db.(users := db.users - {id}, categories := cats, products := prods)
  }

  /** A user who created no category and no product is deleted alone: the cascade reaches nothing else. */
  lemma DeleteUnreferencedUser(db: Db, id: int)
    requires Valid(db)
    requires forall k :: k in db.categories ==> db.categories[k].userId != id
    requires forall k :: k in db.products ==> db.products[k].userId != id
    ensures DeleteUserCascade(db, id) == db.(users := db.users - {id})
  {
    var r := DeleteUserCascade(db, id);
    forall k | k in db.categories
      ensures k in r.categories
    {
    }
    assert r.categories == db.categories;
    assert ForeignKeys(db);
    forall k | k in db.products
      ensures k in r.products
    {
      assert db.products[k].categoryId in r.categories;
    }
    assert r.products == db.products;
  }

  /** Deleting a category: its products go with it (`ON DELETE CASCADE`). */
  function DeleteCategoryCascade(db: Db, id: int): (r: Db)
    ensures r.categories == db.categories - {id}
    ensures forall k :: k in r.products <==> k in db.products && db.products[k].categoryId != id
    ensures forall k :: k in r.products ==> r.products[k] == db.products[k]
    ensures r.users == db.users && r.otps == db.otps
    ensures r.nextUserId == db.nextUserId && r.nextOtpId == db.nextOtpId
            && r.nextCategoryId == db.nextCategoryId && r.nextProductId == db.nextProductId
    ensures Valid(db) ==> Valid(r)
  {
    var prods := map k | k in db.products && db.products[k].categoryId != id :: db.products[k];
    db.(categories := db.categories - {id}, products := prods)
  }
}

=== FILE: error_catch.dfy ===
/**
 * The `errorCatch` helper (common/helpers/error-catch.ts) that the user
 * service routes every failure through: it never returns, it rethrows.
 */
module ErrorCatch {
  import opened Wrappers
  import opened Http
  import ErrorHandler

  /** `err.response.message`, as a new exception's response value. */
  function ResponseMessage(r: Resp): Resp {
    match r
    case RespObject(Some(MsgText(t)), _, _) => RespText(t)
    case RespObject(Some(MsgList(items)), _, _) => RespList(items)
    case _ => RespNone
  }

  /** `err.response.statusCode`. */
  function ResponseStatusCode(r: Resp): Option<int> {
    if r.RespObject? then r.statusCode else None
  }

  /**
   * `errorCatch(err)`: an error with a truthy `response` is rethrown as
   * `new HttpException(response.message, response.statusCode)`; anything
   * else, null and undefined included, as an InternalServerErrorException
   * whose message is `json`, the text `JSON.stringify(err)` produces.
   */
  function ErrorCatch<T>(err: Thrown, json: string): (r: Outcome<T>)
    ensures r.Throw? && r.exc.HttpExc?
    ensures RespTruthy(err.response) ==>
              r.exc == RawHttpException(ResponseMessage(err.response), ResponseStatusCode(err.response))
    ensures !RespTruthy(err.response) ==> r.exc == InternalServerError(json)
  {
    if RespTruthy(err.response) then
      Throw(RawHttpException(ResponseMessage(err.response), ResponseStatusCode(err.response)))
    else
      Throw(InternalServerError(json))
  }

  /** The branch is decided by the truthiness of `err.response` alone: the rethrow is an internal error exactly when it is falsy. */
  lemma BranchByResponseOnly<T>(err: Thrown, json: string)
    ensures ErrorCatch<T>(err, json).exc == InternalServerError(json) <==> !RespTruthy(err.response)
  {
  }

  /**
   * A built-in exception that passes through `errorCatch` and then the
   * exception filter keeps its status and message but loses its label: the
   * rethrown response is a bare string, so the filter reports "Bad Request".
   */
  lemma RethrownBuiltInLosesLabel(status: int, tag: string, message: string, json: string)
    requires message != ""
    ensures var e := ErrorCatch<()>(BuiltIn(status, tag, MsgText(message)), json).exc;
            ErrorHandler.Catch(e) == ErrorHandler.Reply(Some(status),
              ErrorHandler.ErrorBody(MsgText(message), ErrorHandler.DEFAULT_ERROR, Some(status)))
  {
  }

  /** A list message (a Conflict) rethrown by `errorCatch` reaches the client only as the default message. */
  lemma RethrownListLosesMessages(status: int, tag: string, messages: seq<string>, json: string)
    ensures var e := ErrorCatch<()>(BuiltIn(status, tag, MsgList(messages)), json).exc;
            ErrorHandler.Catch(e).body.message == MsgText(ErrorHandler.DEFAULT_MESSAGE)
  {
  }
}

=== FILE: error_handler.dfy ===
/**
 * The global exception filter (common/error/error-handler.ts): every thrown
 * value becomes an HTTP status and a body `{message, error, statusCode}`.
 */
module ErrorHandler {
  import opened Wrappers
  import opened Http

  const DEFAULT_MESSAGE := "Something went wrong"
  const DEFAULT_ERROR := "Bad Request"

  /** The JSON body sent to the client. */
  datatype ErrorBody = ErrorBody(message: Msg, error: string, statusCode: Option<int>)

  /** The status passed to `response.status(...)` and the body passed to `.json(...)`. */
  datatype Reply = Reply(status: Option<int>, body: ErrorBody)

  /** The filter's reply for a thrown value. */
  function Catch(exception: Thrown): (r: Reply)
    ensures r.body.statusCode == r.status
    ensures exception.HttpExc? ==> r.status == exception.status
    ensures !exception.HttpExc? ==> r.status == Some(INTERNAL_SERVER_ERROR)
    ensures r.body.error == DEFAULT_ERROR
            || (exception.HttpExc? && exception.response.RespObject?
                && exception.response.error == Some(r.body.error) && r.body.error != "")
  {
    var status := if exception.HttpExc? then exception.status else Some(INTERNAL_SERVER_ERROR);
    var (message, error) :=
      match exception
      case HttpExc(_, response) =>
        (match response
         case RespText(text) => (MsgText(text), DEFAULT_ERROR)
         case RespObject(m, e, _) =>
           (if m.Some? && MsgTruthy(m.value) then m.value else MsgText(DEFAULT_MESSAGE),
            if e.Some? && e.value != "" then e.value else DEFAULT_ERROR)
         case _ => (MsgText(DEFAULT_MESSAGE), DEFAULT_ERROR))
      case PlainErr(_, text, _) => (MsgText(text), DEFAULT_ERROR)
      case NonError(_) => (MsgText(DEFAULT_MESSAGE), DEFAULT_ERROR);
    Reply(status, ErrorBody(message, error, status))
  }

  /** A built-in exception with a non-empty message and label is reported with exactly its own body. */
  lemma BuiltInReportedVerbatim(status: int, tag: string, message: Msg)
    requires MsgTruthy(message) && tag != ""
    ensures Catch(BuiltIn(status, tag, message)) == Reply(Some(status), ErrorBody(message, tag, Some(status)))
  {
  }

  /**
   * Anything that is not an HttpException is a 500, and its label stays the
   * default "Bad Request" even so; a plain Error contributes its `.message`.
   */
  lemma NonHttpIs500WithDefaultLabel(exception: Thrown)
    requires !exception.HttpExc?
    ensures Catch(exception).status == Some(INTERNAL_SERVER_ERROR)
    ensures Catch(exception).body.error == DEFAULT_ERROR
    ensures exception.PlainErr? ==> Catch(exception).body.message == MsgText(exception.message)
    ensures exception.NonError? ==> Catch(exception).body.message == MsgText(DEFAULT_MESSAGE)
  {
  }

  /** A string response is the message, verbatim, even when it is empty. */
  lemma StringResponseVerbatim(status: Option<int>, text: string)
    ensures Catch(HttpExc(status, RespText(text))).body == ErrorBody(MsgText(text), DEFAULT_ERROR, status)
  {
  }

  /**
   * For an object response a falsy `message` or `error` keeps the default,
   * and an array message is passed through without being joined.
   */
  lemma ObjectResponseDefaults(status: Option<int>, m: Option<Msg>, e: Option<string>, code: Option<int>)
    ensures var body := Catch(HttpExc(status, RespObject(m, e, code))).body;
            && (m.None? || !MsgTruthy(m.value) ==> body.message == MsgText(DEFAULT_MESSAGE))
            && (m.Some? && m.value.MsgList? ==> body.message == m.value)
            && (e.None? || e.value == "" ==> body.error == DEFAULT_ERROR)
            && (e.Some? && e.value != "" ==> body.error == e.value)
  {
  }

  /** An array or absent response has no `message` member, so the defaults are sent. */
  lemma MemberlessResponseDefaults(status: Option<int>, items: seq<string>)
    ensures Catch(HttpExc(status, RespList(items))).body == ErrorBody(MsgText(DEFAULT_MESSAGE), DEFAULT_ERROR, status)
    ensures Catch(HttpExc(status, RespNone)).body == ErrorBody(MsgText(DEFAULT_MESSAGE), DEFAULT_ERROR, status)
  {
  }
}

=== FILE: file_delete.dfy ===
/**
 * `removeFilesSafe` (common/utils/file-delete.util.ts): unlinks each named
 * file inside a base directory and summarises the outcomes. The file system
 * is a parameter: `unlink(i, path)` is how the `i`-th of the concurrent
 * `fs.unlink` calls, the one for `path`, settled.
 */
module FileDelete {
  import opened Wrappers
  import opened Paths
  import Text

  /** A settled `fs.unlink` promise: fulfilled, or rejected with an error's `code` and `message`. */
  datatype UnlinkResult = Unlinked | UnlinkFailed(code: Option<string>, message: string)

  datatype Summary = Summary(deleted: nat, missing: nat, failed: nat, errors: seq<string>)

  predicate IsUnlinked(u: UnlinkResult) {
    u.Unlinked?
  }

  predicate IsMissing(u: UnlinkResult) {
    u.UnlinkFailed? && u.code == Some("ENOENT")
  }

  predicate IsHardFailure(u: UnlinkResult) {
    u.UnlinkFailed? && u.code != Some("ENOENT")
  }

  /** The line recorded for a file whose deletion failed. */
  function ErrorLine(name: string, u: UnlinkResult): string
    requires u.UnlinkFailed?
  {
    name + " -> " + u.message
  }

  /** `path.join(baseDir, path.basename(name))`. */
  function TargetPath(baseDir: string, name: string): string {
    JoinUnder(baseDir, Basename(name))
  }

  /** The positions of `xs` whose result satisfies `p`, in increasing order. */
  function Where(xs: seq<UnlinkResult>, p: UnlinkResult -> bool): (w: seq<nat>)
    ensures forall j :: 0 <= j < |w| ==> w[j] < |xs| && p(xs[w[j]])
    ensures forall j, k :: 0 <= j < k < |w| ==> w[j] < w[k]
    ensures forall i :: 0 <= i < |xs| && p(xs[i]) ==> i in w
  {
    if |xs| == 0 then []
    else
      var n := |xs| - 1;
      var rest := Where(xs[..n], p);
      assert forall i :: 0 <= i < n ==> xs[..n][i] == xs[i];
      if p(xs[n]) then rest + [n] else rest
  }

  /**
   * What `removeFilesSafe` reports for the settled `results`: one count per
   * kind of outcome, and one error line per hard failure, in file order.
   */
  predicate Summarises(s: Summary, names: seq<string>, results: seq<UnlinkResult>)
    requires |names| == |results|
  {
    var failures := Where(results, IsHardFailure);
    && s.deleted == |Where(results, IsUnlinked)|
    && s.missing == |Where(results, IsMissing)|
    && s.failed == |failures|
    && |s.errors| == |failures|
    && forall j :: 0 <= j < |failures| ==> s.errors[j] == ErrorLine(names[failures[j]], results[failures[j]])
  }

  /** The description pins the summary down: two summaries of the same outcomes are equal. */
  lemma SummaryUnique(s: Summary, t: Summary, names: seq<string>, results: seq<UnlinkResult>)
    requires |names| == |results|
    requires Summarises(s, names, results) && Summarises(t, names, results)
    ensures s == t
  {
    assert s.errors == t.errors;
  }

  /**
   * The `forEach` over the settled results: each file counts once, as
   * deleted, missing (ENOENT) or failed; only failures leave an error line,
   * in file order.
   */
  function Tally(names: seq<string>, results: seq<UnlinkResult>): (s: Summary)
    requires |names| == |results|
    ensures Summarises(s, names, results)
    ensures s.deleted + s.missing + s.failed == |names|
    ensures s.failed == 0 <==> forall i :: 0 <= i < |results| ==> !IsHardFailure(results[i])
    ensures s.missing == 0 <==> forall i :: 0 <= i < |results| ==> !IsMissing(results[i])
    ensures s.deleted == |names| <==> forall i :: 0 <= i < |results| ==> results[i].Unlinked?
  {
    if |names| == 0 then Summary(0, 0, 0, [])
    else
      var n := |names| - 1;
      var prev := Tally(names[..n], results[..n]);
      var u := results[n];
      var s :=
        if u.Unlinked? then prev.(deleted := prev.deleted + 1)
        else if IsMissing(u) then prev.(missing := prev.missing + 1)
        else prev.(failed := prev.failed + 1, errors := prev.errors + [ErrorLine(names[n], u)]);
      SummarisesStep(names, results, prev, s);
      assert s.deleted + s.missing + s.failed == |names|;
      NoFailureKinds(s, names, results);
      s
  }

  /** In a summary of every file, a count is zero exactly when no outcome is of its kind. */
  lemma NoFailureKinds(s: Summary, names: seq<string>, results: seq<UnlinkResult>)
    requires |names| == |results|
    requires Summarises(s, names, results) && s.deleted + s.missing + s.failed == |names|
    ensures s.failed == 0 <==> forall i :: 0 <= i < |results| ==> !IsHardFailure(results[i])
    ensures s.missing == 0 <==> forall i :: 0 <= i < |results| ==> !IsMissing(results[i])
    ensures s.deleted == |names| <==> forall i :: 0 <= i < |results| ==> results[i].Unlinked?
  {
    NoneWhere(results, IsHardFailure);
    NoneWhere(results, IsMissing);
  }

  /** `Where` finds nothing exactly when no result satisfies `p`. */
  lemma NoneWhere(xs: seq<UnlinkResult>, p: UnlinkResult -> bool)
    ensures |Where(xs, p)| == 0 <==> forall i :: 0 <= i < |xs| ==> !p(xs[i])
  {
    var w := Where(xs, p);
    if |w| > 0 {
      assert p(xs[w[0]]);
    }
  }

  /** Adding the last file's outcome to the summary of the files before it summarises them all. */
  lemma SummarisesStep(names: seq<string>, results: seq<UnlinkResult>, prev: Summary, s: Summary)
    requires |names| == |results| > 0
    requires Summarises(prev, names[..|names| - 1], results[..|names| - 1])
    requires var n := |names| - 1; var u := results[n];
             s == if u.Unlinked? then prev.(deleted := prev.deleted + 1)
                  else if IsMissing(u) then prev.(missing := prev.missing + 1)
                  else prev.(failed := prev.failed + 1, errors := prev.errors + [ErrorLine(names[n], u)])
    ensures Summarises(s, names, results)
  {
    var n := |names| - 1;
    var u := results[n];
    var fs := Where(results[..n], IsHardFailure);
    var all := Where(results, IsHardFailure);
    assert all == fs + (if IsHardFailure(u) then [n] else []);
    forall j | 0 <= j < |fs|
      ensures prev.errors[j] == ErrorLine(names[fs[j]], results[fs[j]])
    {
      assert results[..n][fs[j]] == results[fs[j]] && names[..n][fs[j]] == names[fs[j]];
    }
    if IsHardFailure(u) {
      forall j | 0 <= j < |all|
        ensures s.errors[j] == ErrorLine(names[all[j]], results[all[j]])
      {
        if j < |fs| {
          assert all[j] == fs[j] && s.errors[j] == prev.errors[j];
        } else {
          assert all[j] == n;
        }
      }
    }
  }

  /** The settled outcomes, in file order: `unlink(i, path)` is how the `i`-th concurrent unlink ended. */
  function Outcomes(filenames: seq<string>, baseDir: string, unlink: (nat, string) -> UnlinkResult): (rs: seq<UnlinkResult>)
    ensures |rs| == |filenames|
    ensures forall i :: 0 <= i < |filenames| ==> rs[i] == unlink(i, TargetPath(baseDir, filenames[i]))
  {
    seq(|filenames|, i requires 0 <= i < |filenames| => unlink(i, TargetPath(baseDir, filenames[i])))
  }

  /** `removeFilesSafe(filenames, baseDir)`, each deletion aimed at `TargetPath(baseDir, name)`. */
  function RemoveFilesSafe(filenames: seq<string>, baseDir: string, unlink: (nat, string) -> UnlinkResult): (s: Summary)
    ensures Summarises(s, filenames, Outcomes(filenames, baseDir, unlink))
    ensures s.deleted + s.missing + s.failed == |filenames|
    ensures s.failed == 0 <==> forall i :: 0 <= i < |filenames| ==> !IsHardFailure(unlink(i, TargetPath(baseDir, filenames[i])))
    ensures filenames == [] ==> s == Summary(0, 0, 0, [])
  {
    var rs := Outcomes(filenames, baseDir, unlink);
    Tally(filenames, rs)
  }

  /**
   * The same name listed twice is unlinked twice, concurrently: one call
   * removes the file and the other finds it gone.
   */
  lemma RepeatedNameSettlesTwice(baseDir: string, name: string, unlink: (nat, string) -> UnlinkResult)
    requires unlink(0, TargetPath(baseDir, name)).Unlinked?
    requires IsMissing(unlink(1, TargetPath(baseDir, name)))
    ensures RemoveFilesSafe([name, name], baseDir, unlink) == Summary(1, 1, 0, [])
  {
    var names := [name, name];
    var rs := Outcomes(names, baseDir, unlink);
    TallyTwo(names, rs);
  }

  /** Two files, the first deleted and the second already gone. */
  lemma TallyTwo(names: seq<string>, results: seq<UnlinkResult>)
    requires |names| == |results| == 2
    requires results[0].Unlinked? && IsMissing(results[1])
    ensures Tally(names, results) == Summary(1, 1, 0, [])
  {
    assert results[..1][0] == results[0];
    assert Tally(names[..1], results[..1]) == Summary(1, 0, 0, []);
  }

  /** A missing file (ENOENT) is counted as missing and never as a failure. */
  lemma {:induction false} MissingIsNotFailure(names: seq<string>, results: seq<UnlinkResult>)
    requires |names| == |results|
    requires forall i :: 0 <= i < |results| ==> results[i].Unlinked? || IsMissing(results[i])
    ensures Tally(names, results).failed == 0 && Tally(names, results).errors == []
    ensures Tally(names, results).deleted + Tally(names, results).missing == |names|
  {
  }

  /**
   * Directory components are stripped: a name whose last component is an
   * ordinary file name is deleted as a direct child of the base directory.
   */
  lemma TargetIsDirectChild(baseDir: string, name: string)
    requires Basename(name) !in {"", ".", ".."}
    ensures TargetPath(baseDir, name) == baseDir + "/" + Basename(name)
    ensures '/' !in Basename(name)
  {
  }

  /** The confinement has a gap: a name whose last component is ".." targets the parent of the base directory. */
  lemma DotDotEscapesBase()
    ensures TargetPath("/srv/uploads", "..") == "/srv"
  {
    BasenameNoSlash("..");
    Text.LastIndexOfIs("/srv/uploads", '/', 4);
  }
}

=== FILE: http.dfy ===
/**
 * The shapes NestJS gives thrown values. An `HttpException` carries a status
 * and the `response` it was built from; the built-in subclasses
 * (BadRequestException, NotFoundException, ...) build that response as
 * `{message, error: <label>, statusCode}`. Anything else thrown is either an
 * `Error` (a database failure, a library error) or a non-Error value.
 */
module Http {
  import opened Wrappers

  /** The `message` member of a response object: a string or an array of strings. */
  datatype Msg = MsgText(text: string) | MsgList(items: seq<string>)

  /** An exception's `response` value. `RespNone` is `undefined`/`null`. */
  datatype Resp =
    | RespNone
    | RespText(text: string)
    | RespList(items: seq<string>)
    | RespObject(message: Option<Msg>, error: Option<string>, statusCode: Option<int>)

  /** A thrown value. `status` is `None` when the exception was built with an undefined status. */
  datatype Thrown =
    | HttpExc(status: Option<int>, response: Resp)
    | PlainErr(name: string, message: string, response: Resp)
    | NonError(response: Resp)

  /** What an operation does: returns a value, or throws. */
  datatype Outcome<+T> = Ok(value: T) | Throw(exc: Thrown)

  const BAD_REQUEST := 400
  const UNAUTHORIZED := 401
  const FORBIDDEN := 403
  const NOT_FOUND := 404
  const CONFLICT := 409
  const INTERNAL_SERVER_ERROR := 500
  const SERVICE_UNAVAILABLE := 503

  /** JavaScript truthiness of a `message` value: only the empty string is falsy. */
  predicate MsgTruthy(m: Msg) {
    !(m.MsgText? && m.text == "")
  }

  /** JavaScript truthiness of a `response` value. */
  predicate RespTruthy(r: Resp) {
    match r
    case RespNone => false
    case RespText(t) => t != ""
    case RespList(_) => true
    case RespObject(_, _, _) => true
  }

  /**
   * A built-in exception `new XxxException(message, tag)`: a falsy message
   * gives `{statusCode, message: tag}`, otherwise `{message, error: tag, statusCode}`.
   */
  function BuiltIn(status: int, tag: string, message: Msg): (e: Thrown)
    ensures e.HttpExc? && e.status == Some(status) && e.response.RespObject?
    ensures e.response.statusCode == Some(status)
    ensures MsgTruthy(message) ==> e.response.message == Some(message) && e.response.error == Some(tag)
    ensures !MsgTruthy(message) ==> e.response.message == Some(MsgText(tag)) && e.response.error == None
  {
    if MsgTruthy(message) then HttpExc(Some(status), RespObject(Some(message), Some(tag), Some(status)))
    else HttpExc(Some(status), RespObject(Some(MsgText(tag)), None, Some(status)))
  }

  function BadRequest(message: string): Thrown { BuiltIn(BAD_REQUEST, "Bad Request", MsgText(message)) }
  function Unauthorized(message: string): Thrown { BuiltIn(UNAUTHORIZED, "Unauthorized", MsgText(message)) }
  function Forbidden(message: string): Thrown { BuiltIn(FORBIDDEN, "Forbidden", MsgText(message)) }
  function NotFound(message: string): Thrown { BuiltIn(NOT_FOUND, "Not Found", MsgText(message)) }
  function Conflict(messages: seq<string>): Thrown { BuiltIn(CONFLICT, "Conflict", MsgList(messages)) }
  function InternalServerError(message: string): Thrown {
    BuiltIn(INTERNAL_SERVER_ERROR, "Internal Server Error", MsgText(message))
  }
  /** `new ServiceUnavailableException(message, description)`: the description becomes the `error` tag. */
  function ServiceUnavailable(message: string, description: string): Thrown {
    BuiltIn(SERVICE_UNAVAILABLE, description, MsgText(message))
  }

  /** `new HttpException(response, status)`: the response is kept as given. */
  function RawHttpException(response: Resp, status: Option<int>): Thrown {
    HttpExc(status, response)
  }

  /**
   * The `message` an HttpException takes from its response: the response
   * itself when it is a string, its `message` member when that is a string,
   * and otherwise the class name split into words, which for a plain
   * HttpException is "Http Exception".
   */
  function ExceptionMessage(response: Resp): string {
    match response
    case RespText(t) => t
    case RespObject(Some(MsgText(t)), _, _) => t
    case _ => "Http Exception"
  }

  /** The error TypeORM raises when a statement violates a constraint (unique key, integer syntax). */
  function QueryFailed(detail: string): Thrown {
    PlainErr("QueryFailedError", detail, RespNone)
  }

  /** Whether `e` is the built-in exception with this status and text message. */
  predicate IsBuiltIn(e: Thrown, status: int, message: string) {
    e.HttpExc? && e.status == Some(status) && e.response.RespObject?
    && e.response.message == Some(MsgText(message))
  }

  /** The outcome is a throw of the built-in exception with this status and text message. */
  predicate Threw<T>(r: Outcome<T>, status: int, message: string) {
    r.Throw? && IsBuiltIn(r.exc, status, message)
  }
}

=== FILE: multer_config.dfy ===
/**
 * The upload settings (config/multer.config.ts): the image-extension filter,
 * the stored file name and the size and count limits.
 */
module MulterConfig {
  import opened Wrappers
  import opened Text
  import opened Http
  import opened Paths

  const ALLOWED_IMAGE_TYPES: seq<string> := [".jpg", ".jpeg", ".png", ".gif", ".webp"]

  /** 5 MiB per file. */
  const MAX_FILE_SIZE: nat := 5 * 1024 * 1024

  /** At most 10 files per request. */
  const MAX_FILES: nat := 10

  const ONLY_IMAGES := "Only image files are allowed!"

  /** The two arguments handed to multer's callback: `cb(error, accept)`. */
  datatype FilterVerdict = FilterVerdict(error: Option<Thrown>, accept: bool)

  /** `fileFilter`: accepts exactly the files whose lower-cased extension is an allowed image type. */
  function FileFilter(originalName: string): (v: FilterVerdict)
    ensures v.accept <==> ToLower(Extname(originalName)) in ALLOWED_IMAGE_TYPES
    ensures v.accept ==> v.error == None
    ensures !v.accept ==> v.error == Some(BadRequest(ONLY_IMAGES))
  {
    var ext := ToLower(Extname(originalName));
    if ext !in ALLOWED_IMAGE_TYPES then FilterVerdict(Some(BadRequest(ONLY_IMAGES)), false)
    else FilterVerdict(None, true)
  }

  /** The `filename` callback: the random stem followed by the original, un-lowered extension. */
  function StoredName(randomStem: string, originalName: string): (name: string)
    requires randomStem != "" && '/' !in randomStem && '.' !in randomStem
    ensures Extname(name) == Extname(originalName)
  {
    var ext := Extname(originalName);
    ExtnameOfStemAndExt(randomStem, ext);
    randomStem + ext
  }

  /** Whether a batch of uploads stays within the configured limits. */
  predicate WithinLimits(sizes: seq<nat>) {
    |sizes| <= MAX_FILES && forall i :: 0 <= i < |sizes| ==> sizes[i] <= MAX_FILE_SIZE
  }

  /** The extension's case is ignored: "<stem>.JPG" is accepted. */
  lemma UpperCaseExtensionAccepted(stem: string)
    requires stem != "" && '/' !in stem && '.' !in stem
    ensures FileFilter(stem + ".JPG").accept
  {
    ExtnameOfStemAndExt(stem, ".JPG");
    LowerJpg();
  }

  lemma LowerJpg()
    ensures ToLower(".JPG") == ".jpg" == ALLOWED_IMAGE_TYPES[0]
  {
  }

  /** Only the part after the last dot counts: "<stem>.png.gz" is refused. */
  lemma DoubleExtensionRefused(stem: string)
    requires stem != "" && '/' !in stem && '.' !in stem
    ensures !FileFilter(stem + ".png.gz").accept
  {
    var name := stem + ".png.gz";
    var d := |stem| + 4;
    assert name[d..] == ".gz";
    assert name[d + 1..] == "gz";
    assert '/' !in name by {
      forall i | 0 <= i < |name| ensures name[i] != '/' {
        if i < |stem| { assert name[i] == stem[i]; }
      }
    }
    ExtnameAt(name, d);
    GzNotAllowed();
    var e := Extname(name);
    assert ToLower(e) !in ALLOWED_IMAGE_TYPES;
  }

  lemma GzNotAllowed()
    ensures ToLower(".gz") !in ALLOWED_IMAGE_TYPES
  {
    ToLowerFixesNonUpper(".gz");
  }

  /** A dot-file such as ".png" has no extension, so it is refused. */
  lemma DotFileRefused()
    ensures !FileFilter(".png").accept
  {
    BasenameNoSlash(".png");
    LastIndexOfIs(".png", '.', 0);
    assert ToLower("") == "";
  }

  /** The bytes a batch of uploads holds. */
  function TotalSize(sizes: seq<nat>): nat {
    if |sizes| == 0 then 0 else TotalSize(sizes[..|sizes| - 1]) + sizes[|sizes| - 1]
  }

  /** A batch within the limits holds at most 10 x 5 MiB = 50 MiB, whatever its sizes. */
  lemma {:induction false} TotalWithinLimits(sizes: seq<nat>)
    requires WithinLimits(sizes)
    ensures TotalSize(sizes) <= |sizes| * MAX_FILE_SIZE <= MAX_FILES * MAX_FILE_SIZE == 52428800
  {
    if |sizes| > 0 {
      var init := sizes[..|sizes| - 1];
      assert forall i :: 0 <= i < |init| ==> init[i] == sizes[i];
      TotalWithinLimits(init);
    }
  }

  /**
   * The limits judge files one by one plus a count: two batches sent
   * together are within the limits exactly when each is and there are at
   * most 10 files in all.
   */
  lemma {:induction false} WithinLimitsJoin(a: seq<nat>, b: seq<nat>)
    ensures WithinLimits(a + b) <==> WithinLimits(a) && WithinLimits(b) && |a| + |b| <= MAX_FILES
  {
    if WithinLimits(a + b) {
      forall i | 0 <= i < |a| ensures a[i] <= MAX_FILE_SIZE { assert a[i] == (a + b)[i]; }
      forall i | 0 <= i < |b| ensures b[i] <= MAX_FILE_SIZE { assert b[i] == (a + b)[|a| + i]; }
    }
  }
}

=== FILE: paths.dfy ===
/**
 * The parts of Node's POSIX `path` module the upload and file-deletion code
 * relies on: `basename`, `extname`, and `join` of a directory with a single
 * file-name segment.
 */
module Paths {
  import opened Text

  function StripTrailingSlashes(p: string): (r: string)
    ensures r <= p
    ensures |r| == 0 || r[|r| - 1] != '/'
    ensures forall i :: |r| <= i < |p| ==> p[i] == '/'
  {
    if |p| > 0 && p[|p| - 1] == '/' then StripTrailingSlashes(p[..|p| - 1]) else p
  }

  /** The part after the last '/' (all of `p` when it has none). */
  function AfterLastSlash(p: string): (r: string)
    ensures '/' !in r
    ensures |r| <= |p| && r == p[|p| - |r|..]
    ensures |r| < |p| ==> p[|p| - |r| - 1] == '/'
  {
    if |p| == 0 then ""
    else if p[|p| - 1] == '/' then ""
    else
      var r := AfterLastSlash(p[..|p| - 1]);
      assert p[|p| - |r| - 1..] == r + [p[|p| - 1]];
      r + [p[|p| - 1]]
  }

  /** `path.basename(p)`: the last component, trailing slashes ignored. */
  function Basename(p: string): (r: string)
    ensures '/' !in r
  {
    AfterLastSlash(StripTrailingSlashes(p))
  }

  /**
   * The base name is the last component: with trailing slashes removed, it
   * is the slash-free suffix that starts right after the last '/' (or at the
   * start, when no '/' is left).
   */
  lemma BasenameIsLastComponent(p: string)
    ensures var q, r := StripTrailingSlashes(p), Basename(p);
            && r == q[|q| - |r|..] && '/' !in r
            && (|r| < |q| ==> q[|q| - |r| - 1] == '/')
            && (forall i :: |q| <= i < |p| ==> p[i] == '/')
  {
  }

  /** Whatever precedes the last slash, the part after it is what `AfterLastSlash` returns. */
  lemma {:induction false} AfterLastSlashOfChild(dir: string, name: string)
    requires '/' !in name
    ensures AfterLastSlash(dir + "/" + name) == name
  {
    var p := dir + "/" + name;
    if name != "" {
      var init := name[..|name| - 1];
      assert p[..|p| - 1] == dir + "/" + init;
      assert '/' !in init by {
        assert forall c :: c in init ==> c in name;
      }
      AfterLastSlashOfChild(dir, init);
      assert name == init + [p[|p| - 1]];
    }
  }

  /** The last component of a path built as `dir + "/" + name` is `name`. */
  lemma BasenameOfChild(dir: string, name: string)
    requires name != "" && '/' !in name
    ensures Basename(dir + "/" + name) == name
  {
    var p := dir + "/" + name;
    assert p[|p| - 1] == name[|name| - 1];
    assert StripTrailingSlashes(p) == p;
    AfterLastSlashOfChild(dir, name);
  }

  /** `path.extname(p)`: from the last '.' of the last component, unless that component is a dot-file or "..". */
  function Extname(p: string): (r: string)
    ensures r == "" || (r[0] == '.' && '.' !in r[1..] && '/' !in r)
    ensures r != "" ==> |r| < |Basename(p)| && r == Basename(p)[|Basename(p)| - |r|..]
  {
    var part := Basename(p);
    var d := LastIndexOf(part, '.');
    if d <= 0 || part == ".." then "" else part[d..]
  }

  /** The parent of a normalized absolute directory. */
  function DirName(dir: string): string {
    var k := LastIndexOf(dir, '/');
    if k <= 0 then "/" else dir[..k]
  }

  /**
   * `path.join(dir, segment)` for a normalized directory and a segment
   * without '/': an empty segment or "." is the directory itself, ".." its
   * parent, anything else a direct child.
   */
  function JoinUnder(dir: string, segment: string): (r: string)
    requires '/' !in segment
    ensures segment !in {"", ".", ".."} ==> r == dir + "/" + segment
  {
    if segment == "" || segment == "." then dir
    else if segment == ".." then DirName(dir)
    else dir + "/" + segment
  }

  /** An extension-free stem followed by an extension keeps that extension. */
  lemma {:induction false} ExtnameOfStemAndExt(stem: string, ext: string)
    requires stem != "" && '/' !in stem && '.' !in stem
    requires ext == "" || (ext[0] == '.' && '.' !in ext[1..] && '/' !in ext)
    ensures Extname(stem + ext) == ext
  {
    var p := stem + ext;
    assert '/' !in p by {
      forall i | 0 <= i < |p| ensures p[i] != '/' {
        if i < |stem| { assert p[i] == stem[i]; } else { assert p[i] == ext[i - |stem|]; }
      }
    }
    assert StripTrailingSlashes(p) == p;
    NoSlashIsOwnBasename(p);
    LastDotOfStemAndExt(stem, ext);
  }

  /** The last '.' of `stem + ext` is the one that starts `ext`. */
  lemma LastDotOfStemAndExt(stem: string, ext: string)
    requires stem != "" && '.' !in stem
    requires ext == "" || (ext[0] == '.' && '.' !in ext[1..])
    ensures ext == "" ==> LastIndexOf(stem + ext, '.') == -1
    ensures ext != "" ==> LastIndexOf(stem + ext, '.') == |stem| > 0 && (stem + ext)[|stem|..] == ext
  {
    var p := stem + ext;
    var d := LastIndexOf(p, '.');
    if ext == "" {
      assert p == stem;
    } else {
      assert p[|stem|] == '.';
      assert p[|stem| + 1..] == ext[1..];
      assert d == |stem|;
      assert p[d..] == ext;
    }
  }

  lemma {:induction false} NoSlashIsOwnBasename(p: string)
    requires '/' !in p
    ensures AfterLastSlash(p) == p
    decreases |p|
  {
    if |p| > 0 {
      assert '/' !in p[..|p| - 1];
      NoSlashIsOwnBasename(p[..|p| - 1]);
      assert p == p[..|p| - 1] + [p[|p| - 1]];
    }
  }

  /** A path without '/' is its own basename. */
  lemma BasenameNoSlash(p: string)
    requires '/' !in p
    ensures Basename(p) == p
  {
    if |p| > 0 {
      assert p[|p| - 1] in p;
    }
    assert StripTrailingSlashes(p) == p;
    NoSlashIsOwnBasename(p);
  }

  /** The extension of a slash-free name whose last dot is at `d > 0`. */
  lemma ExtnameAt(p: string, d: int)
    requires '/' !in p && 0 < d < |p| && p[d] == '.' && '.' !in p[d + 1..] && p != ".."
    ensures Extname(p) == p[d..]
  {
    BasenameNoSlash(p);
    LastIndexOfIs(p, '.', d);
  }
}

=== FILE: product_dto.dfy ===
/**
 * CreateProductDto and its PartialType UpdateProductDto
 * (product/dto/create-product.dto.ts): the `@Transform` steps (trim, Number)
 * followed by the class-validator rules. Numeric fields arrive already
 * through `Number(value)`.
 */
module ProductDto {
  import opened Wrappers
  import opened Text

  /** The result of `Number(value)`: a finite number, or NaN/Infinity. */
  datatype Num = Finite(value: real) | NotFinite

  /**
   * A body value under a `value.trim()` transform: a string, or any other
   * JSON value (number, boolean, null, array, object), on which `trim` is
   * not a function.
   */
  datatype RawText = Text(text: string) | NotText

  /** The request body as received, before transforms. */
  datatype RawProduct = RawProduct(
    title: Option<RawText>,
    description: Option<RawText>,
    price: Option<Num>,
    categoryId: Option<Num>,
    images: Option<seq<string>>,
    stock: Option<Num>,
    brand: Option<RawText>)

  /** A validated body: strings trimmed, numbers checked. */
  datatype CreateProduct = CreateProduct(
    title: string,
    description: string,
    price: real,
    categoryId: int,
    images: Option<seq<string>>,
    stock: int,
    brand: Option<string>)

  /** A validated partial body: every present field passed its rule. */
  datatype ProductPatch = ProductPatch(
    title: Option<string>,
    description: Option<string>,
    price: Option<real>,
    categoryId: Option<int>,
    images: Option<seq<string>>,
    stock: Option<int>,
    brand: Option<string>)

  /** The validated fields, as class-validator names them in its errors. */
  datatype FieldName = Title | Description | Price | CategoryId | Stock

  /**
   * The validation pipe's verdict. `TransformFailed` is the TypeError a
   * `trim` transform throws before any rule runs; the pipe does not catch
   * it, so the exception filter answers it as a plain error, with 500.
   */
  datatype Validation<T> = Accepted(dto: T) | Rejected(failed: seq<FieldName>) | TransformFailed

  predicate IsNotText(v: Option<RawText>) { v == Some(NotText) }

  /** Some `trim`-transformed field holds a value other than a string. */
  predicate TrimThrows(raw: RawProduct) { IsNotText(raw.title) || IsNotText(raw.description) || IsNotText(raw.brand) }

  /** The trimmed text of a present field, absent when the field is. */
  function TrimmedField(v: Option<RawText>): Option<string>
    requires !IsNotText(v)
  {
    if v.Some? then Some(Trim(v.value.text)) else None
  }

  /** The variation selectors validator.js's `isLength` leaves out of a length. */
  predicate IsPresentationSelector(c: char) { c == '\U{FE0E}' || c == '\U{FE0F}' }

  /**
   * The length `@MinLength` measures (validator.js `isLength`): UTF-16 code
   * units, less one per surrogate pair and one per variation selector, that
   * is, the characters other than variation selectors.
   */
  function MinLengthCount(s: string): (n: nat)
    ensures n <= |s|
    ensures n == |s| <==> forall i :: 0 <= i < |s| ==> !IsPresentationSelector(s[i])
  {
    if |s| == 0 then 0
    else
      var n := MinLengthCount(s[..|s| - 1]);
      assert forall i :: 0 <= i < |s| - 1 ==> s[..|s| - 1][i] == s[i];
      n + if IsPresentationSelector(s[|s| - 1]) then 0 else 1
  }

  /** The count adds up over concatenation. */
  lemma {:induction false} MinLengthCountAppend(a: string, b: string)
    ensures MinLengthCount(a + b) == MinLengthCount(a) + MinLengthCount(b)
  {
    if |b| > 0 {
      var c := b[..|b| - 1];
      assert (a + b)[..|a + b| - 1] == a + c;
      MinLengthCountAppend(a, c);
    } else {
      assert a + b == a;
    }
  }

  /** A character outside the Basic Multilingual Plane counts once; a variation selector not at all. */
  lemma MinLengthCountExamples()
    ensures MinLengthCount("\U{1F600}a") == 2
    ensures MinLengthCount("ab\U{FE0F}") == 2
    ensures MinLengthCount("abc") == 3
  {
    assert "\U{1F600}a"[..1] == "\U{1F600}";
    assert "ab\U{FE0F}"[..2] == "ab" && "ab"[..1] == "a";
    assert "abc"[..2] == "ab" && "ab"[..1] == "a";
  }

  /** @IsNotEmpty @IsString @MinLength(3) after trim. */
  predicate TitleOk(t: string) { MinLengthCount(Trim(t)) >= 3 }

  /** @IsNotEmpty @IsString after trim. */
  predicate DescriptionOk(d: string) { Trim(d) != "" }

  /** @IsNumber @IsPositive. */
  predicate PriceOk(n: Num) { n.Finite? && n.value > 0.0 }

  /** @IsInt @IsPositive. */
  predicate PositiveIntOk(n: Num) { n.Finite? && n.value > 0.0 && n.value == n.value.Floor as real }

  /** A `trim`-transformed field that is present, a string, and passes `ok`. */
  predicate TextOk(v: Option<RawText>, ok: string -> bool) { v.Some? && v.value.Text? && ok(v.value.text) }

  predicate TitleFieldOk(raw: RawProduct) { TextOk(raw.title, TitleOk) }
  predicate DescriptionFieldOk(raw: RawProduct) { TextOk(raw.description, DescriptionOk) }
  predicate PriceFieldOk(raw: RawProduct) { raw.price.Some? && PriceOk(raw.price.value) }
  predicate CategoryFieldOk(raw: RawProduct) { raw.categoryId.Some? && PositiveIntOk(raw.categoryId.value) }
  predicate StockFieldOk(raw: RawProduct) { raw.stock.Some? && PositiveIntOk(raw.stock.value) }

  function Flag(ok: bool, name: FieldName): seq<FieldName> { if ok then [] else [name] }

  /** The failed fields, in declaration order, given each field's verdict. */
  function Failures(title: bool, description: bool, price: bool, categoryId: bool, stock: bool): (f: seq<FieldName>)
    ensures f == [] <==> title && description && price && categoryId && stock
    ensures (Title in f <==> !title) && (Description in f <==> !description) && (Price in f <==> !price)
            && (CategoryId in f <==> !categoryId) && (Stock in f <==> !stock)
  {
    Flag(title, Title) + Flag(description, Description) + Flag(price, Price)
    + Flag(categoryId, CategoryId) + Flag(stock, Stock)
  }

  /**
   * The whole pipeline for a create request: a non-string text field fails
   * in the transforms; otherwise valid exactly when every required field
   * passes its rule.
   */
  function ValidateCreate(raw: RawProduct): (r: Validation<CreateProduct>)
    ensures r.TransformFailed? <==> TrimThrows(raw)
    ensures r.Accepted? <==> (!TrimThrows(raw) && TitleFieldOk(raw) && DescriptionFieldOk(raw) && PriceFieldOk(raw)
                              && CategoryFieldOk(raw) && StockFieldOk(raw))
    ensures r.Rejected? ==> (
      && |r.failed| > 0
      && (Title in r.failed <==> !TitleFieldOk(raw))
      && (Description in r.failed <==> !DescriptionFieldOk(raw))
      && (Price in r.failed <==> !PriceFieldOk(raw))
      && (CategoryId in r.failed <==> !CategoryFieldOk(raw))
      && (Stock in r.failed <==> !StockFieldOk(raw)))
    ensures r.Accepted? ==> (
      && MinLengthCount(r.dto.title) >= 3 && |r.dto.title| >= 3 && r.dto.description != ""
      && r.dto.title == Trim(raw.title.value.text)
      && r.dto.description == Trim(raw.description.value.text)
      && r.dto.price > 0.0 && r.dto.categoryId > 0 && r.dto.stock > 0
      && r.dto.price == raw.price.value.value
      && r.dto.categoryId as real == raw.categoryId.value.value
      && r.dto.stock as real == raw.stock.value.value
      && r.dto.brand == TrimmedField(raw.brand)
      && r.dto.images == raw.images)
  {
    if TrimThrows(raw) then TransformFailed
    else
      var failed := Failures(TitleFieldOk(raw), DescriptionFieldOk(raw), PriceFieldOk(raw),
                             CategoryFieldOk(raw), StockFieldOk(raw));
      if failed != [] then Rejected(failed)
      else
        Accepted(CreateProduct(
          Trim(raw.title.value.text),
          Trim(raw.description.value.text),
          raw.price.value.value,
          raw.categoryId.value.value.Floor,
          raw.images,
          raw.stock.value.value.Floor,
          TrimmedField(raw.brand)))
  }

  predicate OptionalOk<T>(v: Option<T>, ok: T -> bool) { v.None? || ok(v.value) }

  /** An absent `trim`-transformed field, or a string that passes `ok`. */
  predicate OptionalTextOk(v: Option<RawText>, ok: string -> bool) { v.None? || (v.value.Text? && ok(v.value.text)) }

  /**
   * An update request: a non-string text field fails in the transforms;
   * otherwise every field is optional, and a present field must pass its
   * create rule.
   */
  function ValidateUpdate(raw: RawProduct): (r: Validation<ProductPatch>)
    ensures r.TransformFailed? <==> TrimThrows(raw)
    ensures r.Accepted? <==> (!TrimThrows(raw)
                              && OptionalTextOk(raw.title, TitleOk) && OptionalTextOk(raw.description, DescriptionOk)
                              && OptionalOk(raw.price, PriceOk) && OptionalOk(raw.categoryId, PositiveIntOk)
                              && OptionalOk(raw.stock, PositiveIntOk))
    ensures r.Rejected? ==> (
      && |r.failed| > 0
      && (Title in r.failed <==> !OptionalTextOk(raw.title, TitleOk))
      && (Description in r.failed <==> !OptionalTextOk(raw.description, DescriptionOk))
      && (Price in r.failed <==> !OptionalOk(raw.price, PriceOk))
      && (CategoryId in r.failed <==> !OptionalOk(raw.categoryId, PositiveIntOk))
      && (Stock in r.failed <==> !OptionalOk(raw.stock, PositiveIntOk)))
    ensures r.Accepted? ==> (
      && r.dto.title == TrimmedField(raw.title)
      && (r.dto.title.Some? ==> MinLengthCount(r.dto.title.value) >= 3)
      && r.dto.description == TrimmedField(raw.description)
      && (r.dto.description.Some? ==> r.dto.description.value != "")
      && (r.dto.price.Some? <==> raw.price.Some?)
      && (r.dto.price.Some? ==> r.dto.price.value == raw.price.value.value > 0.0)
      && (r.dto.categoryId.Some? <==> raw.categoryId.Some?)
      && (r.dto.categoryId.Some? ==> r.dto.categoryId.value as real == raw.categoryId.value.value && r.dto.categoryId.value > 0)
      && (r.dto.stock.Some? <==> raw.stock.Some?)
      && (r.dto.stock.Some? ==> r.dto.stock.value as real == raw.stock.value.value && r.dto.stock.value > 0)
      && r.dto.brand == TrimmedField(raw.brand)
      && r.dto.images == raw.images)
  {
    if TrimThrows(raw) then TransformFailed
    else
      var failed := Failures(OptionalTextOk(raw.title, TitleOk), OptionalTextOk(raw.description, DescriptionOk),
                             OptionalOk(raw.price, PriceOk), OptionalOk(raw.categoryId, PositiveIntOk),
                             OptionalOk(raw.stock, PositiveIntOk));
      if failed != [] then Rejected(failed)
      else
        Accepted(ProductPatch(
          TrimmedField(raw.title),
          TrimmedField(raw.description),
          if raw.price.Some? then Some(raw.price.value.value) else None,
          if raw.categoryId.Some? then Some(raw.categoryId.value.value.Floor) else None,
          raw.images,
          if raw.stock.Some? then Some(raw.stock.value.value.Floor) else None,
          TrimmedField(raw.brand)))
  }

  /** A number where a title belongs fails in the transforms, before any rule, whatever the other fields hold. */
  lemma NumericTitleFailsTransform(raw: RawProduct)
    requires raw.title == Some(NotText)
    ensures ValidateCreate(raw) == TransformFailed && ValidateUpdate(raw) == TransformFailed
  {
  }

  /** A validated create body passes the update rules too: UpdateProductDto only relaxes presence. */
  lemma CreateBodyIsValidUpdate(raw: RawProduct)
    requires ValidateCreate(raw).Accepted?
    ensures ValidateUpdate(raw).Accepted?
  {
  }
}

=== FILE: product_order.dfy ===
/**
 * The ordering and paging `findAll` asks the database for
 * (product/product.service.ts): the rows sorted by the chosen key, then
 * `skip` rows dropped and at most `take` kept. The database leaves the order
 * of rows with equal keys open; this model keeps them in id order.
 */
module ProductOrder {
  import opened Entities

  /** `ProductOrderOptions`, with the `default:` arm folded into `Latest`. */
  datatype Order = Latest | Cheapest | Expensive

  /** The `switch` over the order option: anything unrecognised sorts like "latest". */
  function ParseOrder(option: string): (o: Order)
    ensures o == Cheapest <==> option == "cheapest"
    ensures o == Expensive <==> option == "expensive"
    ensures option == "latest" ==> o == Latest
  {
    if option == "cheapest" then Cheapest
    else if option == "expensive" then Expensive
    else Latest
  }

  /** `a` may be listed before `b`: createdAt descending, price ascending, or price descending. */
  predicate Before(a: Product, b: Product, o: Order) {
    match o
    case Latest => a.createdAt >= b.createdAt
    case Cheapest => a.price <= b.price
    case Expensive => a.price >= b.price
  }

  predicate Sorted(s: seq<Product>, o: Order) {
    forall i, j :: 0 <= i < j < |s| ==> Before(s[i], s[j], o)
  }

  /** Putting an element that may precede every element in front of a sorted list keeps it sorted. */
  lemma ConsSorted(h: Product, t: seq<Product>, o: Order)
    requires Sorted(t, o)
    requires forall j :: 0 <= j < |t| ==> Before(h, t[j], o)
    ensures Sorted([h] + t, o)
  {
    var r := [h] + t;
    forall i, j | 0 <= i < j < |r|
      ensures Before(r[i], r[j], o)
    {
      if i > 0 {
        assert r[i] == t[i - 1] && r[j] == t[j - 1];
      } else {
        assert r[j] == t[j - 1];
      }
    }
  }

  /** In a sorted list the head may precede every later element. */
  lemma HeadPrecedes(s: seq<Product>, x: Product, o: Order)
    requires Sorted(s, o) && |s| > 0 && x in s[1..]
    ensures Before(s[0], x, o)
  {
    var k :| 0 <= k < |s[1..]| && s[1..][k] == x;
    assert s[k + 1] == x;
  }

  /** Inserts `p` into a sorted list after every element that must precede it. */
  function Insert(p: Product, s: seq<Product>, o: Order): (r: seq<Product>)
    requires Sorted(s, o)
    ensures Sorted(r, o)
    ensures multiset(r) == multiset(s) + multiset{p}
    ensures forall x :: x in r ==> x == p || x in s
  {
    if s == [] then [p]
    else if Before(p, s[0], o) then
      assert forall j :: 0 <= j < |s| ==> Before(p, s[j], o);
      ConsSorted(p, s, o);
      [p] + s
    else
      assert s == [s[0]] + s[1..];
      var rest := Insert(p, s[1..], o);
      assert forall j :: 0 <= j < |rest| ==> Before(s[0], rest[j], o) by {
        forall j | 0 <= j < |rest|
          ensures Before(s[0], rest[j], o)
        {
          assert rest[j] in rest;
          if rest[j] != p {
            HeadPrecedes(s, rest[j], o);
          }
        }
      }
      ConsSorted(s[0], rest, o);
      [s[0]] + rest
  }

  /** A stable insertion sort: the same rows, in the requested order. */
  function Sort(s: seq<Product>, o: Order): (r: seq<Product>)
    ensures Sorted(r, o)
    ensures multiset(r) == multiset(s)
  {
    if s == [] then []
    else
      assert s == s[..|s| - 1] + [s[|s| - 1]];
      Insert(s[|s| - 1], Sort(s[..|s| - 1], o), o)
  }

  /** `skip` then `take`, where a `take` of 0 sets no limit. */
  function Page(s: seq<Product>, skip: nat, take: nat): (r: seq<Product>)
    ensures skip >= |s| ==> r == []
    ensures skip < |s| ==> |r| > 0 && r[0] == s[skip]
    ensures take > 0 ==> |r| <= take
    ensures take == 0 || skip + take >= |s| ==> r == (if skip < |s| then s[skip..] else [])
    ensures forall i :: 0 <= i < |r| ==> skip + i < |s| && r[i] == s[skip + i]
  {
    var rest := if skip < |s| then s[skip..] else [];
    if take > 0 && take < |rest| then rest[..take] else rest
  }

  /** A slice of a sorted list is sorted. */
  lemma PageSorted(s: seq<Product>, skip: nat, take: nat, o: Order)
    requires Sorted(s, o)
    ensures Sorted(Page(s, skip, take), o)
  {
  }

  /** The ids of `m` in `[i, n)`. */
  function KeysIn<V>(m: map<int, V>, i: int, n: int): set<int> {
    set k | k in m && i <= k < n
  }

  /** The table's rows with ids in `[i, n)`, in id order. */
  function Rows(m: map<int, Product>, i: int, n: int): (r: seq<Product>)
    decreases n - i
    ensures |r| == |KeysIn(m, i, n)|
    ensures forall k :: k in m && i <= k < n ==> m[k] in r
    ensures forall x :: x in r ==> exists k :: k in m && i <= k < n && m[k] == x
  {
    if i >= n then
      assert KeysIn(m, i, n) == {};
      []
    else
      var rest := Rows(m, i + 1, n);
      if i in m then
        assert KeysIn(m, i, n) == {i} + KeysIn(m, i + 1, n);
        [m[i]] + rest
      else
        assert KeysIn(m, i, n) == KeysIn(m, i + 1, n);
        rest
  }

  /** With well-formed keys, the rows listed in id order are the whole table. */
  lemma RowsCoverTable(db: Db)
    ensures Valid(db) ==> |Rows(db.products, 1, db.nextProductId)| == |db.products|
    ensures forall k :: k in db.products && 1 <= k < db.nextProductId ==> db.products[k] in Rows(db.products, 1, db.nextProductId)
  {
    if Valid(db) {
      assert KeysIn(db.products, 1, db.nextProductId) == db.products.Keys;
    }
  }
}

=== FILE: product_service.dfy ===
/**
 * The product service (product/product.service.ts): creation under an
 * existing category, the paged listing, the ADMIN ownership rule for
 * changes and removals, and image cleanup on removal. Failures are thrown
 * directly. The clock (`createdAt`) and the file system are parameters.
 */
module ProductService {
  import opened Wrappers
  import opened Roles
  import opened Http
  import opened Text
  import opened Entities
  import opened ProductOrder
  import opened ProductDto
  import FileDelete
  import CategoryService

  const UPDATE_FORBIDDEN := "Admin faqat o\U{2018}zi qo\U{2018}shgan product'ni yangilay oladi"
  const REMOVE_FORBIDDEN := "Admin faqat o\U{2018}zi qo\U{2018}shgan product'ni o\U{2018}chira oladi"

  /** `findAll`'s parameter defaults. */
  const DEFAULT_SKIP: nat := 0
  const DEFAULT_LIMIT: nat := 30
  const DEFAULT_ORDER := "latest"

  /** What PostgreSQL reports, through TypeORM, for an integer id given as `NaN`. */
  const NAN_ID := QueryFailed("invalid input syntax for type integer: \"NaN\"")

  /** `{allProducts, total, skip, limit}`. */
  datatype Listing = Listing(items: seq<Product>, total: nat, skip: nat, limit: nat)

  /** `{id, files}` returned by `remove`. */
  datatype Removed = Removed(id: int, files: FileDelete.Summary)

  /** An ADMIN acting on a product someone else created. */
  predicate ForeignAdmin(requester: Payload, p: Product) {
    requester.role == ADMIN && p.userId != requester.id
  }

  function CategoryMissing(db: Db, id: int): Thrown {
    NotFound(IntToString(id) + " id'lik category topilmadi")
  }

  /**
   * `create`: the category must exist; the row records the requester as
   * creator, `now` as its creation time and no images when none were
   * uploaded.
   */
  function Create(db: Db, requester: Payload, dto: CreateProduct, now: int): (r: Step<Product>)
    ensures r.out.Throw? ==> r.db == db
    ensures dto.categoryId !in db.categories ==> Threw(r.out, NOT_FOUND, IntToString(dto.categoryId) + " id'lik category topilmadi")
    ensures dto.categoryId in db.categories && requester.id !in db.users ==> r.out == Throw(FOREIGN_KEY_VIOLATION)
    ensures r.out.Ok? <==> dto.categoryId in db.categories && requester.id in db.users
    ensures r.out.Ok? ==> var p := r.out.value;
                          && p == Product(db.nextProductId, dto.title, dto.description, dto.price, dto.categoryId,
                                          requester.id, dto.images.GetOr([]), dto.stock, dto.brand, now)
                          && r.db == db.(products := db.products[p.id := p], nextProductId := p.id + 1)
    ensures Valid(db) ==> Valid(r.db)
  {
    match CategoryService.FindOne(db, dto.categoryId)
    case Throw(e) => Step(db, Throw(e))
    case Ok(_) =>
      if requester.id !in db.users then Step(db, Throw(FOREIGN_KEY_VIOLATION))
      else
        var p := Product(0, dto.title, dto.description, dto.price, dto.categoryId, requester.id,
                         dto.images.GetOr([]), dto.stock, dto.brand, now);
        var db' := InsertProduct(db, p);
        Step(db', Ok(db'.products[db.nextProductId]))
  }

  /**
   * `findAll`: the table sorted by the chosen order, `skip` rows dropped and
   * at most `limit` kept (0 keeps all); `total` counts the whole table.
   * Absent parameters take their defaults.
   */
  function FindAll(db: Db, skip: Option<nat>, limit: Option<nat>, order: Option<string>): (r: Listing)
    ensures r.skip == skip.GetOr(DEFAULT_SKIP) && r.limit == limit.GetOr(DEFAULT_LIMIT)
    ensures Valid(db) ==> r.total == |db.products|
    ensures Sorted(r.items, ParseOrder(order.GetOr(DEFAULT_ORDER)))
    ensures r.limit > 0 ==> |r.items| <= r.limit
    ensures forall x :: x in r.items ==> exists k :: k in db.products && db.products[k] == x
    ensures exists all :: && Sorted(all, ParseOrder(order.GetOr(DEFAULT_ORDER)))
                          && multiset(all) == multiset(Rows(db.products, 1, db.nextProductId))
                          && r.items == Page(all, r.skip, r.limit)
  {
    var o := ParseOrder(order.GetOr(DEFAULT_ORDER));
    var s := skip.GetOr(DEFAULT_SKIP);
    var l := limit.GetOr(DEFAULT_LIMIT);
    var rows := Rows(db.products, 1, db.nextProductId);
    var all := Sort(rows, o);
    var items := Page(all, s, l);
    RowsCoverTable(db);
    PageSorted(all, s, l, o);
    PageFromTable(db, rows, all, items, s, l);
    assert Sorted(all, o) && multiset(all) == multiset(rows) && items == Page(all, s, l);
    Listing(items, |rows|, s, l)
  }

  /** Asking for everything (`skip` 0, `limit` 0) lists every product of the table exactly once. */
  lemma {:induction false} FullListingCoversTable(db: Db, order: Option<string>)
    requires Valid(db)
    ensures var r := FindAll(db, Some(0), Some(0), order);
            && |r.items| == |db.products| == r.total
            && forall k :: k in db.products ==> db.products[k] in r.items
  {
    var r := FindAll(db, Some(0), Some(0), order);
    var rows := Rows(db.products, 1, db.nextProductId);
    RowsCoverTable(db);
    var all :| && Sorted(all, ParseOrder(order.GetOr(DEFAULT_ORDER)))
               && multiset(all) == multiset(rows) && r.items == Page(all, 0, 0);
    assert r.items == all;
    assert |all| == |rows| by {
      assert |multiset(all)| == |multiset(rows)|;
    }
    forall k | k in db.products
      ensures db.products[k] in r.items
    {
      assert db.products[k] in rows;
      assert db.products[k] in multiset(all);
    }
  }

  /** Every listed row comes from the table. */
  lemma PageFromTable(db: Db, rows: seq<Product>, all: seq<Product>, items: seq<Product>, skip: nat, take: nat)
    requires rows == Rows(db.products, 1, db.nextProductId)
    requires multiset(all) == multiset(rows) && items == Page(all, skip, take)
    ensures forall x :: x in items ==> exists k :: k in db.products && db.products[k] == x
  {
    forall x | x in items
      ensures exists k :: k in db.products && db.products[k] == x
    {
      var i :| 0 <= i < |items| && items[i] == x;
      assert all[skip + i] == x;
      assert x in multiset(rows);
      assert x in rows;
    }
  }

  /** With no parameters the first page holds at most 30 products and starts with the newest one. */
  lemma {:induction false} DefaultListingNewestFirst(db: Db)
    requires Valid(db) && |db.products| > 0
    ensures var r := FindAll(db, None, None, None);
            && r.skip == 0 && r.limit == 30 && 0 < |r.items| <= 30
            && forall k :: k in db.products ==> r.items[0].createdAt >= db.products[k].createdAt
  {
    var rows := Rows(db.products, 1, db.nextProductId);
    RowsCoverTable(db);
    var all := Sort(rows, Latest);
    assert multiset(all) == multiset(rows);
    assert |all| > 0 by {
      assert |multiset(all)| == |multiset(rows)|;
    }
    forall k | k in db.products
      ensures all[0].createdAt >= db.products[k].createdAt
    {
      var x := db.products[k];
      assert x in rows;
      assert x in multiset(all);
      var j :| 0 <= j < |all| && all[j] == x;
      if j > 0 { assert Before(all[0], all[j], Latest); }
    }
  }

  /** An order option other than "cheapest" and "expensive" lists like "latest". */
  lemma UnknownOrderIsLatest(db: Db, skip: Option<nat>, limit: Option<nat>, option: string)
    requires option != "cheapest" && option != "expensive"
    ensures FindAll(db, skip, limit, Some(option)) == FindAll(db, skip, limit, None)
  {
  }

  /** `findOne`: NotFound exactly when the id is missing. */
  function FindOne(db: Db, id: int): (r: Outcome<Product>)
    ensures r.Ok? <==> id in db.products
    ensures r.Ok? ==> r.value == db.products[id]
    ensures r.Throw? ==> Threw(r, NOT_FOUND, IntToString(id) + " id'lik product topilmadi")
  {
    if id in db.products then Ok(db.products[id])
    else Throw(NotFound(IntToString(id) + " id'lik product topilmadi"))
  }

  /** `{...product, ...updateProductDto}`: every field the body carries replaces the stored one, images included. */
  function Overlay(p: Product, patch: ProductPatch): (q: Product)
    ensures q.id == p.id && q.userId == p.userId && q.createdAt == p.createdAt
    ensures q.title == patch.title.GetOr(p.title) && q.description == patch.description.GetOr(p.description)
    ensures q.price == patch.price.GetOr(p.price) && q.categoryId == patch.categoryId.GetOr(p.categoryId)
    ensures q.stock == patch.stock.GetOr(p.stock) && q.images == patch.images.GetOr(p.images)
    ensures q.brand == (if patch.brand.Some? then patch.brand else p.brand)
  {
    p.(title := patch.title.GetOr(p.title),
       description := patch.description.GetOr(p.description),
       price := patch.price.GetOr(p.price),
       categoryId := patch.categoryId.GetOr(p.categoryId),
       images := patch.images.GetOr(p.images),
       stock := patch.stock.GetOr(p.stock),
       brand := if patch.brand.Some? then patch.brand else p.brand)
  }

  /** The overlay the `images.length > 0` test intends: an empty upload keeps the stored images. */
  function OverlayKeepingImages(p: Product, patch: ProductPatch): (q: Product)
    ensures q == Overlay(p, patch).(images := q.images)
    ensures q.images == (if patch.images.Some? && |patch.images.value| > 0 then patch.images.value else p.images)
  {
    var q := Overlay(p, patch);
    if patch.images.Some? && |patch.images.value| > 0 then q else q.(images := p.images)
  }

  /**
   * The row `save(updated)` writes as written. `findOne` loaded the
   * `category` relation, and the spread keeps that object next to the
   * patch's `categoryId`; TypeORM takes the join column from the loaded
   * relation, so the stored category stays.
   */
  function SavedAsWritten(p: Product, patch: ProductPatch): (q: Product)
    ensures q.categoryId == p.categoryId
    ensures q.(categoryId := patch.categoryId.GetOr(p.categoryId)) == Overlay(p, patch)
  {
    Overlay(p, patch).(categoryId := p.categoryId)
  }

  /**
   * `update` as written: after the lookup and the ownership check the body
   * is overlaid (an empty image list replacing the stored one), the
   * category is looked up as `Number(categoryId)`, which is `NaN` when the
   * body has no `categoryId`, and the save keeps the loaded category.
   */
  function UpdateAsWritten(db: Db, id: int, patch: ProductPatch, requester: Payload): (r: Step<int>)
    ensures r.out.Throw? ==> r.db == db
    ensures id !in db.products ==> Threw(r.out, NOT_FOUND, IntToString(id) + " id'lik product topilmadi")
    ensures id in db.products && ForeignAdmin(requester, db.products[id]) ==> Threw(r.out, FORBIDDEN, UPDATE_FORBIDDEN)
    ensures id in db.products && !ForeignAdmin(requester, db.products[id]) && patch.categoryId.None? ==> r.out == Throw(NAN_ID)
    ensures r.out.Ok? <==> id in db.products && !ForeignAdmin(requester, db.products[id])
                           && patch.categoryId.Some? && patch.categoryId.value in db.categories
    ensures r.out.Ok? ==> r.out.value == id && r.db == db.(products := db.products[id := SavedAsWritten(db.products[id], patch)])
    ensures Valid(db) ==> Valid(r.db)
  {
    match FindOne(db, id)
    case Throw(e) => Step(db, Throw(e))
    case Ok(p) =>
      if ForeignAdmin(requester, p) then Step(db, Throw(Forbidden(UPDATE_FORBIDDEN)))
      else
        var updated := SavedAsWritten(p, patch);
        if patch.categoryId.None? then Step(db, Throw(NAN_ID))
        else match CategoryService.FindOne(db, patch.categoryId.value)
          case Throw(e) => Step(db, Throw(e))
          case Ok(_) => Step(db.(products := db.products[id := updated]), Ok(id))
  }

  /**
   * `update` as intended: a body without `categoryId` keeps the stored
   * category without a lookup, a given one must exist, and an empty upload
   * keeps the stored images.
   */
  function Update(db: Db, id: int, patch: ProductPatch, requester: Payload): (r: Step<int>)
    ensures r.out.Throw? ==> r.db == db
    ensures id !in db.products ==> Threw(r.out, NOT_FOUND, IntToString(id) + " id'lik product topilmadi")
    ensures id in db.products && ForeignAdmin(requester, db.products[id]) ==> Threw(r.out, FORBIDDEN, UPDATE_FORBIDDEN)
    ensures id in db.products && !ForeignAdmin(requester, db.products[id]) && patch.categoryId.Some?
            && patch.categoryId.value !in db.categories ==>
              Threw(r.out, NOT_FOUND, IntToString(patch.categoryId.value) + " id'lik category topilmadi")
    ensures r.out.Ok? <==> id in db.products && !ForeignAdmin(requester, db.products[id])
                           && (patch.categoryId.Some? ==> patch.categoryId.value in db.categories)
    ensures r.out.Ok? ==> r.out.value == id
                          && r.db == db.(products := db.products[id := OverlayKeepingImages(db.products[id], patch)])
    ensures Valid(db) ==> Valid(r.db)
  {
    match FindOne(db, id)
    case Throw(e) => Step(db, Throw(e))
    case Ok(p) =>
      if ForeignAdmin(requester, p) then Step(db, Throw(Forbidden(UPDATE_FORBIDDEN)))
      else
        var updated := OverlayKeepingImages(p, patch);
        if patch.categoryId.Some? && patch.categoryId.value !in db.categories then
          Step(db, Throw(CategoryService.FindOne(db, patch.categoryId.value).exc))
        else Step(db.(products := db.products[id := updated]), Ok(id))
  }

  /** The body the controller builds when a PATCH carries no files: `images` is always an empty list. */
  function NoUploadPatch(patch: ProductPatch): ProductPatch {
    patch.(images := Some([]))
  }

  /** As written, a PATCH without files erases the stored image list; the intended update keeps it. */
  lemma {:induction false} UpdateWithoutUploadWipesImages(db: Db, id: int, patch: ProductPatch, requester: Payload)
    requires Valid(db) && id in db.products && !ForeignAdmin(requester, db.products[id])
    requires patch.categoryId.Some? && patch.categoryId.value in db.categories
    ensures UpdateAsWritten(db, id, NoUploadPatch(patch), requester).db.products[id].images == []
    ensures Update(db, id, NoUploadPatch(patch), requester).db.products[id].images == db.products[id].images
  {
  }

  /** As written, a PATCH that leaves out `categoryId` fails on the `NaN` lookup; the intended update succeeds. */
  lemma UpdateWithoutCategoryFails(db: Db, id: int, patch: ProductPatch, requester: Payload)
    requires id in db.products && !ForeignAdmin(requester, db.products[id]) && patch.categoryId.None?
    ensures UpdateAsWritten(db, id, patch, requester) == Step(db, Throw(NAN_ID))
    ensures Update(db, id, patch, requester).out == Ok(id)
    ensures Update(db, id, patch, requester).db.products[id].categoryId == db.products[id].categoryId
  {
  }

  /** As written, a PATCH naming another existing category succeeds but leaves the product where it was; the intended update moves it. */
  lemma UpdateAsWrittenKeepsCategory(db: Db, id: int, patch: ProductPatch, requester: Payload)
    requires id in db.products && !ForeignAdmin(requester, db.products[id])
    requires patch.categoryId.Some? && patch.categoryId.value in db.categories
    requires patch.categoryId.value != db.products[id].categoryId
    ensures UpdateAsWritten(db, id, patch, requester).out == Ok(id)
    ensures UpdateAsWritten(db, id, patch, requester).db.products[id].categoryId == db.products[id].categoryId
    ensures Update(db, id, patch, requester).db.products[id].categoryId == patch.categoryId.value
  {
  }

  /** The intended update with an empty body leaves the row as it was. */
  lemma EmptyPatchKeepsProduct(db: Db, id: int, requester: Payload)
    requires id in db.products && !ForeignAdmin(requester, db.products[id])
    ensures var empty := ProductPatch(None, None, None, None, None, None, None);
            Update(db, id, empty, requester) == Step(db, Ok(id))
  {
    var empty := ProductPatch(None, None, None, None, None, None, None);
    assert OverlayKeepingImages(db.products[id], empty) == db.products[id];
    assert db.products[id := db.products[id]] == db.products;
  }

  /**
   * `remove`: after the lookup and the ownership check the product's image
   * files are deleted under `uploadDir`, then the row; the reply carries the
   * id and the deletion summary.
   */
  function Remove(db: Db, id: int, requester: Payload, uploadDir: string,
                  unlink: (nat, string) -> FileDelete.UnlinkResult): (r: Step<Removed>)
    ensures r.out.Throw? ==> r.db == db
    ensures id !in db.products ==> Threw(r.out, NOT_FOUND, IntToString(id) + " id'lik product topilmadi")
    ensures id in db.products && ForeignAdmin(requester, db.products[id]) ==> Threw(r.out, FORBIDDEN, REMOVE_FORBIDDEN)
    ensures r.out.Ok? <==> id in db.products && !ForeignAdmin(requester, db.products[id])
    ensures r.out.Ok? ==> && r.db == DeleteProduct(db, id)
                          && r.out.value == Removed(id, FileDelete.RemoveFilesSafe(db.products[id].images, uploadDir, unlink))
    ensures Valid(db) ==> Valid(r.db)
  {
    match FindOne(db, id)
    case Throw(e) => Step(db, Throw(e))
    case Ok(p) =>
      if ForeignAdmin(requester, p) then Step(db, Throw(Forbidden(REMOVE_FORBIDDEN)))
      else
        var files := FileDelete.RemoveFilesSafe(p.images, uploadDir, unlink);
        Step(DeleteProduct(db, id), Ok(Removed(id, files)))
  }

  /** `removeAll`: every product goes; the reply is how many there were. */
  function RemoveAll(db: Db): (r: Step<nat>)
    ensures r.db.products == map[] && r.db.categories == db.categories && r.db.users == db.users && r.db.otps == db.otps
    ensures r.db.nextProductId == db.nextProductId
    ensures r.out == Ok(|db.products|)
    ensures Valid(db) ==> Valid(r.db)
  {
    Step(db.(products := map[]), Ok(|db.products|))
  }

  /** Neither USER nor OWNER is confined to their own products. */
  lemma OwnerUnrestricted(db: Db, id: int, requester: Payload, uploadDir: string, unlink: (nat, string) -> FileDelete.UnlinkResult)
    requires requester.role != ADMIN && id in db.products
    ensures Remove(db, id, requester, uploadDir, unlink).out.Ok?
    ensures !Update(db, id, ProductPatch(None, None, None, None, None, None, None), requester).out.Throw?
  {
  }

  /** A created product is found under the id the reply names, and a listing counts it. */
  lemma {:induction false} CreateThenFind(db: Db, requester: Payload, dto: CreateProduct, now: int)
    requires Valid(db) && dto.categoryId in db.categories && requester.id in db.users
    ensures var s := Create(db, requester, dto, now);
            && FindOne(s.db, s.out.value.id) == Ok(s.out.value)
            && FindAll(s.db, None, None, None).total == FindAll(db, None, None, None).total + 1
  {
    var s := Create(db, requester, dto, now);
    assert db.nextProductId !in db.products;
    assert s.db.products.Keys == db.products.Keys + {db.nextProductId};
  }
}

=== FILE: role_guards.dfy ===
/**
 * The role guards run after authentication: admin.guard.ts, user.guard.ts
 * and userGuard.ts (the variant the user routes use). `paramId` is
 * `Number(params.id)`; `None` stands for NaN (a missing or non-integer id),
 * which equals no user id.
 */
module RoleGuards {
  import opened Wrappers
  import opened Http
  import opened Roles

  const SELF_ONLY := "Siz faqat o\U{2018}z ma'lumotlaringzni olishingiz va o\U{2018}zgartirishgiz mumkin"

  function RoleForbidden(role: Role): Thrown {
    Forbidden("Forbidden user with role " + RoleName(role))
  }

  predicate IsSelf(user: Payload, paramId: Option<int>) {
    paramId == Some(user.id)
  }

  /** AdminGuard: admits exactly the roles at or above ADMIN; never returns false. */
  function AdminGuard(user: Payload, paramId: Option<int>): (r: Outcome<bool>)
    ensures r.Ok? ==> r.value
    ensures r.Ok? <==> Rank(user.role) >= Rank(ADMIN)
    ensures r.Throw? ==> r.exc == RoleForbidden(user.role)
  {
    if user.role == OWNER then Ok(true)
    else if user.role == ADMIN then Ok(true)
    else Throw(RoleForbidden(user.role))
  }

  /** user.guard.ts: the owner, or anyone acting on their own id; never returns false. */
  function SelfGuard(user: Payload, paramId: Option<int>): (r: Outcome<bool>)
    ensures r.Ok? ==> r.value
    ensures r.Ok? <==> user.role == OWNER || IsSelf(user, paramId)
    ensures r.Throw? ==> r.exc == Forbidden(SELF_ONLY)
  {
    if user.role == OWNER then Ok(true)
    else if paramId == Some(user.id) then Ok(true)
    else Throw(Forbidden(SELF_ONLY))
  }

  /** userGuard.ts: owner and admin always; a user only on their own id; never returns false. */
  function UserGuard(user: Payload, paramId: Option<int>): (r: Outcome<bool>)
    ensures r.Ok? ==> r.value
    ensures r.Ok? <==> Rank(user.role) >= Rank(ADMIN) || IsSelf(user, paramId)
    ensures r.Throw? ==> r.exc == RoleForbidden(user.role)
  {
    if user.role == OWNER then Ok(true)
    else if user.role == ADMIN then Ok(true)
    else if user.role == USER && paramId == Some(user.id) then Ok(true)
    else Throw(RoleForbidden(user.role))
  }

  /** The admin guard looks at the role only, never at the route parameter. */
  lemma AdminGuardIgnoresParams(user: Payload, p: Option<int>, q: Option<int>)
    ensures AdminGuard(user, p) == AdminGuard(user, q)
  {
  }

  /** An admin acting on someone else's id is refused by user.guard.ts but admitted by userGuard.ts. */
  lemma AdminOnOtherIdDiffers(id: int, other: int)
    requires id != other
    ensures SelfGuard(Payload(id, ADMIN), Some(other)) == Throw(Forbidden(SELF_ONLY))
    ensures UserGuard(Payload(id, ADMIN), Some(other)) == Ok(true)
  {
  }

  /** userGuard.ts is the more permissive of the two: whatever user.guard.ts admits, it admits too. */
  lemma SelfGuardAdmitsImpliesUserGuard(user: Payload, paramId: Option<int>)
    requires SelfGuard(user, paramId).Ok?
    ensures UserGuard(user, paramId).Ok?
  {
  }
}

=== FILE: roles.dfy ===
/** The three roles (common/enum) and the identity claim `{id, role}` carried by access tokens. */
module Roles {

  datatype Role = USER | ADMIN | OWNER

  /** The enum's string value, as it appears in messages and in the database. */
  function RoleName(r: Role): string {
    match r
    case USER => "user"
    case ADMIN => "admin"
    case OWNER => "owner"
  }

  /** The privilege order owner above admin above user. */
  function Rank(r: Role): nat {
    match r
    case USER => 0
    case ADMIN => 1
    case OWNER => 2
  }

  /** The token payload attached to a request as `req.user`. */
  datatype Payload = Payload(id: int, role: Role)

  /** A role's name identifies it. */
  lemma RoleNameInjective(a: Role, b: Role)
    ensures RoleName(a) == RoleName(b) <==> a == b
  {
  }
}

=== FILE: text.dfy ===
/**
 * String helpers that the application takes from the JavaScript runtime:
 * decimal rendering of integers in template literals, `String.prototype.split`
 * on a one-character separator, `trim` and the ASCII part of `toLowerCase`.
 */
module Text {

  function DigitChar(d: nat): (c: char)
    requires d < 10
    ensures '0' <= c <= '9'
  {
    ['0', '1', '2', '3', '4', '5', '6', '7', '8', '9'][d]
  }

  function DigitValue(c: char): nat
    requires '0' <= c <= '9'
  {
    (c as int - '0' as int) as nat
  }

  predicate IsDigits(s: string) {
    forall i :: 0 <= i < |s| ==> '0' <= s[i] <= '9'
  }

  /** The decimal digits of `n`, most significant first, no leading zeros. */
  function NatToString(n: nat): (s: string)
    ensures |s| >= 1 && IsDigits(s)
    ensures s[0] == '0' ==> n == 0
    decreases n
  {
    if n < 10 then [DigitChar(n)] else NatToString(n / 10) + [DigitChar(n % 10)]
  }

  /** How `${i}` prints an integer. */
  function IntToString(i: int): (s: string)
    ensures |s| >= 1
  {
    if i < 0 then "-" + NatToString(-i) else NatToString(i)
  }

  /** The value of a string of decimal digits (the reading direction of NatToString). */
  function DigitsValue(s: string): nat
    requires IsDigits(s)
  {
    if |s| == 0 then 0 else 10 * DigitsValue(s[..|s| - 1]) + DigitValue(s[|s| - 1])
  }

  lemma {:induction false} DigitsRoundTrip(n: nat)
    ensures DigitsValue(NatToString(n)) == n
    decreases n
  {
    var s := NatToString(n);
    if n >= 10 {
      DigitsRoundTrip(n / 10);
      assert s[..|s| - 1] == NatToString(n / 10);
    }
  }

  lemma NatToStringInjective(a: nat, b: nat)
    requires NatToString(a) == NatToString(b)
    ensures a == b
  {
    DigitsRoundTrip(a);
    DigitsRoundTrip(b);
  }

  /** Distinct integers print differently, so messages that embed an id name exactly one id. */
  lemma IntToStringInjective(a: int, b: int)
    requires IntToString(a) == IntToString(b)
    ensures a == b
  {
    var sa, sb := IntToString(a), IntToString(b);
    if a < 0 && b < 0 {
      assert sa[1..] == NatToString(-a);
      assert sb[1..] == NatToString(-b);
      NatToStringInjective(-a, -b);
    } else if a >= 0 && b >= 0 {
      NatToStringInjective(a, b);
    }
  }

  // ---------------------------------------------------------------------------
  // split / join on a one-character separator
  // ---------------------------------------------------------------------------

  /** JavaScript's `s.split(sep)` for a one-character separator: never empty, no piece holds `sep`. */
  function Split(s: string, sep: char): (parts: seq<string>)
    ensures |parts| >= 1
    ensures forall i :: 0 <= i < |parts| ==> sep !in parts[i]
  {
    if |s| == 0 then [""]
    else
      var rest := Split(s[1..], sep);
      if s[0] == sep then [""] + rest
      else [[s[0]] + rest[0]] + rest[1..]
  }

  /** `parts.join(sep)`. */
  function Join(parts: seq<string>, sep: char): string
    requires |parts| >= 1
  {
    if |parts| == 1 then parts[0] else parts[0] + [sep] + Join(parts[1..], sep)
  }

  /** Splitting loses nothing: joining the pieces back gives the original string. */
  lemma {:induction false} JoinSplit(s: string, sep: char)
    ensures Join(Split(s, sep), sep) == s
  {
    if |s| > 0 {
      JoinSplit(s[1..], sep);
      var rest := Split(s[1..], sep);
      if s[0] != sep {
        if |rest| > 1 {
          assert rest == [rest[0]] + rest[1..];
          assert ([[s[0]] + rest[0]] + rest[1..])[1..] == rest[1..];
        }
      } else {
        assert ([""] + rest)[1..] == rest;
      }
    }
  }

  /** A separator-free prefix glues onto the first piece of what follows it. */
  lemma {:induction false} SplitPrefix(a: string, b: string, sep: char)
    requires sep !in a
    ensures Split(a + b, sep) == [a + Split(b, sep)[0]] + Split(b, sep)[1..]
    decreases |a|
  {
    if |a| > 0 {
      assert (a + b)[1..] == a[1..] + b;
      assert a[0] != sep;
      SplitPrefix(a[1..], b, sep);
      assert [a[0]] + (a[1..] + Split(b, sep)[0]) == a + Split(b, sep)[0];
    } else {
      assert a + b == b;
      assert a + Split(b, sep)[0] == Split(b, sep)[0];
      assert Split(b, sep) == [Split(b, sep)[0]] + Split(b, sep)[1..];
    }
  }

  /** A separator-free string is a single piece. */
  lemma SplitNoSep(a: string, sep: char)
    requires sep !in a
    ensures Split(a, sep) == [a]
  {
    SplitPrefix(a, "", sep);
    assert a + "" == a;
  }

  /** `a + sep + b` splits into `a` followed by the pieces of `b`. */
  lemma SplitAtSep(a: string, b: string, sep: char)
    requires sep !in a
    ensures Split(a + [sep] + b, sep) == [a] + Split(b, sep)
  {
    var c := [sep] + b;
    assert c[0] == sep && c[1..] == b;
    assert Split(c, sep) == [""] + Split(b, sep);
    SplitPrefix(a, c, sep);
    assert a + [sep] + b == a + c;
    assert a + "" == a;
  }

  /** Joining separator-free pieces and splitting again gives the pieces back. */
  lemma {:induction false} SplitJoin(parts: seq<string>, sep: char)
    requires |parts| >= 1
    requires forall i :: 0 <= i < |parts| ==> sep !in parts[i]
    ensures Split(Join(parts, sep), sep) == parts
  {
    if |parts| == 1 {
      SplitNoSep(parts[0], sep);
    } else {
      SplitJoin(parts[1..], sep);
      SplitAtSep(parts[0], Join(parts[1..], sep), sep);
      assert parts == [parts[0]] + parts[1..];
    }
  }

  // ---------------------------------------------------------------------------
  // trim
  // ---------------------------------------------------------------------------

  /** The characters `String.prototype.trim` removes: ECMAScript WhiteSpace and LineTerminator. */
  predicate IsJsSpace(c: char) {
    || c == ' ' || c == '\t' || c == '\n' || c == '\r'
    || c == '\U{000B}' || c == '\U{000C}' || c == '\U{00A0}' || c == '\U{FEFF}'
    || c == '\U{1680}' || ('\U{2000}' <= c <= '\U{200A}')
    || c == '\U{2028}' || c == '\U{2029}' || c == '\U{202F}' || c == '\U{205F}' || c == '\U{3000}'
  }

  function TrimStart(s: string): (r: string)
    ensures |r| <= |s| && r == s[|s| - |r|..]
    ensures |r| > 0 ==> !IsJsSpace(r[0])
    ensures forall i :: 0 <= i < |s| - |r| ==> IsJsSpace(s[i])
  {
    if |s| > 0 && IsJsSpace(s[0]) then TrimStart(s[1..]) else s
  }

  function TrimEnd(s: string): (r: string)
    ensures |r| <= |s| && r == s[..|r|]
    ensures |r| > 0 ==> !IsJsSpace(r[|r| - 1])
    ensures forall i :: |r| <= i < |s| ==> IsJsSpace(s[i])
  {
    if |s| > 0 && IsJsSpace(s[|s| - 1]) then TrimEnd(s[..|s| - 1]) else s
  }

  /** Every character of `s` is white space. */
  predicate AllJsSpace(s: string) {
    forall j :: 0 <= j < |s| ==> IsJsSpace(s[j])
  }

  lemma AllJsSpaceSlice(s: string, lo: int, hi: int)
    requires 0 <= lo <= hi <= |s|
    requires forall j :: lo <= j < hi ==> IsJsSpace(s[j])
    ensures AllJsSpace(s[lo..hi])
  {
    forall j | 0 <= j < hi - lo
      ensures IsJsSpace(s[lo..hi][j])
    {
      assert s[lo..hi][j] == s[lo + j];
    }
  }

  /** `r` is `s` with `i` white-space characters dropped in front and only white space dropped behind. */
  predicate TrimmedAt(s: string, r: string, i: int) {
    && 0 <= i <= |s| - |r| && AllJsSpace(s[..i])
    && r == s[i..i + |r|] && AllJsSpace(s[i + |r|..])
  }

  /** `r` occurs in `s` as one contiguous run. */
  predicate IsInfix(r: string, s: string) {
    exists i :: 0 <= i <= |s| && r <= s[i..]
  }

  /** `s.trim()`: the infix of `s` left after removing whitespace from both ends. */
  function Trim(s: string): (r: string)
    ensures IsInfix(r, s)
    ensures |r| > 0 ==> !IsJsSpace(r[0]) && !IsJsSpace(r[|r| - 1])
    ensures exists i :: TrimmedAt(s, r, i)
  {
    var t := TrimStart(s);
    var r := TrimEnd(t);
    var i := |s| - |t|;
    assert r <= s[i..];
    assert r == s[i..i + |r|];
    AllJsSpaceSlice(s, 0, i);
    assert s[..i] == s[0..i];
    forall j | i + |r| <= j < |s|
      ensures IsJsSpace(s[j])
    {
      assert s[j] == t[j - i];
    }
    AllJsSpaceSlice(s, i + |r|, |s|);
    assert s[i + |r|..] == s[i + |r|..|s|];
    assert TrimmedAt(s, r, i);
    r
  }

  /** Trim removes exactly the white-space padding: a padded text comes back unpadded. */
  lemma TrimPadded(a: string, x: string, b: string)
    requires forall i :: 0 <= i < |a| ==> IsJsSpace(a[i])
    requires forall i :: 0 <= i < |b| ==> IsJsSpace(b[i])
    requires |x| > 0 ==> !IsJsSpace(x[0]) && !IsJsSpace(x[|x| - 1])
    ensures Trim(a + x + b) == x
  {
    var s := a + x + b;
    var t := TrimStart(s);
    if |x| == 0 {
      assert forall i :: 0 <= i < |s| ==> IsJsSpace(s[i]);
    } else {
      assert s[|a|] == x[0];
      assert t == x + b;
      var e := TrimEnd(t);
      assert t[|x| - 1] == x[|x| - 1];
      assert e == x;
    }
  }

  /** Trimming twice is trimming once. */
  lemma TrimIdempotent(s: string)
    ensures Trim(Trim(s)) == Trim(s)
  {
    var r := Trim(s);
    if |r| > 0 {
      assert TrimStart(r) == r;
      assert TrimEnd(r) == r;
    }
  }

  // ---------------------------------------------------------------------------
  // lower case
  // ---------------------------------------------------------------------------

  function LowerChar(c: char): char {
    if 'A' <= c <= 'Z' then (c as int + 32) as char else c
  }

  /** `toLowerCase` on the ASCII letters; every other character is kept. */
  function ToLower(s: string): (r: string)
    ensures |r| == |s|
    ensures forall i :: 0 <= i < |s| ==> r[i] == LowerChar(s[i])
  {
    if |s| == 0 then "" else [LowerChar(s[0])] + ToLower(s[1..])
  }

  /** A string without upper-case ASCII letters is its own lower case. */
  lemma ToLowerFixesNonUpper(s: string)
    requires forall i :: 0 <= i < |s| ==> !('A' <= s[i] <= 'Z')
    ensures ToLower(s) == s
  {
  }

  /** The index of the last `c` among the first `n` characters of `s`, or -1. */
  function LastIndexBefore(s: string, c: char, n: nat): (k: int)
    requires n <= |s|
    ensures -1 <= k < n
    ensures k >= 0 ==> s[k] == c && forall j :: k < j < n ==> s[j] != c
    ensures k == -1 ==> forall j :: 0 <= j < n ==> s[j] != c
    decreases n
  {
    if n == 0 then -1
    else if s[n - 1] == c then n - 1
    else LastIndexBefore(s, c, n - 1)
  }

  /** The index of the last `c` in `s`, or -1. */
  function LastIndexOf(s: string, c: char): (k: int)
    ensures -1 <= k < |s|
    ensures k >= 0 ==> s[k] == c && c !in s[k + 1..]
    ensures k == -1 ==> c !in s
  {
    LastIndexBefore(s, c, |s|)
  }

  /** The last occurrence is the one with no later occurrence. */
  lemma LastIndexOfIs(s: string, c: char, k: int)
    requires 0 <= k < |s| && s[k] == c && c !in s[k + 1..]
    ensures LastIndexOf(s, c) == k
  {
  }
}

=== FILE: unique_fields.dfy ===
/**
 * `checkUniqueFields` (common/helpers/check-unique-fields.ts): for each
 * `[key, value]` entry, in order, asks the repository whether a row already
 * holds that value and collects one message per collision. The repository
 * query is the parameter `taken`.
 */
module UniqueFields {

  /** One `[key, value]` entry of the fields object. */
  datatype Field = Field(key: string, value: string)

  /** `'<value>' <key>'lik <repoName> mavjud` ("a <repoName> with this <key> exists"). */
  function Message(f: Field, repoName: string): string {
    "'" + f.value + "' " + f.key + "'lik " + repoName + " mavjud"
  }

  /** The messages for the taken fields, in field order. */
  function CheckUniqueFields(fields: seq<Field>, taken: Field -> bool, repoName: string): (errors: seq<string>)
    ensures |errors| <= |fields|
    ensures errors == [] <==> forall i :: 0 <= i < |fields| ==> !taken(fields[i])
    ensures forall j :: 0 <= j < |errors| ==>
              exists i :: 0 <= i < |fields| && taken(fields[i]) && errors[j] == Message(fields[i], repoName)
    ensures forall i :: 0 <= i < |fields| && taken(fields[i]) ==> Message(fields[i], repoName) in errors
  {
    if |fields| == 0 then []
    else
      var rest := CheckUniqueFields(fields[1..], taken, repoName);
      assert forall i :: 1 <= i < |fields| ==> fields[i] == fields[1..][i - 1];
      if taken(fields[0]) then
        var errors := [Message(fields[0], repoName)] + rest;
        assert forall j :: 1 <= j < |errors| ==> errors[j] == rest[j - 1];
        errors
      else rest
  }

  /** Errors come out in field order: checking `a + b` reports `a`'s collisions before `b`'s. */
  lemma {:induction false} ErrorsInFieldOrder(a: seq<Field>, b: seq<Field>, taken: Field -> bool, repoName: string)
    ensures CheckUniqueFields(a + b, taken, repoName)
            == CheckUniqueFields(a, taken, repoName) + CheckUniqueFields(b, taken, repoName)
  {
    if |a| > 0 {
      assert (a + b)[1..] == a[1..] + b;
      ErrorsInFieldOrder(a[1..], b, taken, repoName);
    } else {
      assert a + b == b;
    }
  }

  /** With every field taken there is exactly one message per field, in order. */
  lemma {:induction false} AllTakenOnePerField(fields: seq<Field>, taken: Field -> bool, repoName: string)
    requires forall i :: 0 <= i < |fields| ==> taken(fields[i])
    ensures |CheckUniqueFields(fields, taken, repoName)| == |fields|
    ensures forall i :: 0 <= i < |fields| ==> CheckUniqueFields(fields, taken, repoName)[i] == Message(fields[i], repoName)
  {
    if |fields| > 0 {
      assert forall i :: 0 <= i < |fields[1..]| ==> taken(fields[1..][i]);
      AllTakenOnePerField(fields[1..], taken, repoName);
    }
  }
}

=== FILE: user_service.dfy ===
/**
 * The user service (user/user.service.ts): the owner bootstrap, the
 * cache-based sign-up revision, sign-in, lookups and the admin updates.
 * Every operation except `findOne` sends its failures through `errorCatch`.
 * Password hashing and comparison are the parameters `hash` and `matches`;
 * `stringify` is `JSON.stringify` of an error that has no `response`.
 */
module UserService {
  import opened Wrappers
  import opened Roles
  import opened Http
  import opened Text
  import opened Entities
  import ErrorCatch

  /** The cache-manager store: email to pending one-time code. TTL expiry is not modelled. */
  type Cache = map<string, string>

  datatype CacheStep<+T> = CacheStep(db: Db, cache: Cache, out: Outcome<T>)

  /** `config.ADMIN_FULL_NAME`, `config.ADMIN_EMAIL` and the hash of `config.ADMIN_PASSWORD`. */
  datatype AdminConfig = AdminConfig(fullName: string, email: string, passwordHash: string)

  /**
   * CreateUserDto. The validation pipe refuses any other key, `role`
   * included, so a new account's role always comes from the service.
   */
  datatype SignUpDto = SignUpDto(
    fname: string,
    lname: Option<string>,
    address: Option<string>,
    email: string,
    password: string)

  /** The columns `findOne` selects. */
  datatype UserView = UserView(
    id: int, fname: string, lname: Option<string>, address: Option<string>, email: string, role: Role)

  /** A row as a plain `findOne({ where })` reads it: every column but the `select: false` password. */
  datatype UserRow = UserRow(
    id: int, fname: string, lname: Option<string>, address: Option<string>, email: string, role: Role, isActive: bool)

  /** The profile `authUserProfile` and `updateUser` return. */
  datatype Profile = Profile(id: int, fname: string, lname: Option<string>, address: Option<string>, email: string)

  /** A successful sign-in: the claims put into both tokens, and the refresh-token cookie's name. */
  datatype Session = Session(payload: Payload, cookie: string)

  /** `signinAdmin` signs `{id, role, email}`. */
  datatype AdminClaims = AdminClaims(id: int, role: Role, email: string)
  datatype AdminSession = AdminSession(claims: AdminClaims, cookie: string)

  /** The fields of an update body; absent fields are `None`. Values are written as given. */
  datatype ProfilePatch = ProfilePatch(
    fname: Option<string>,
    lname: Option<string>,
    address: Option<string>,
    email: Option<string>,
    password: Option<string>)

  /** UpdateUserByAdminDto: the profile fields and `role`. */
  datatype RolePatch = RolePatch(profile: ProfilePatch, role: Option<Role>)

  const USER_COOKIE := "refreshTokenUser"
  const ADMIN_COOKIE := "refreshTokenSuperAdmin"
  const SIGN_IN_FAILED := "Email or password incorrect"

  /** `errorCatch` on one of Nest's built-in exceptions, whose response is always an object. */
  function RethrowHttp<T>(e: Thrown): Outcome<T>
    requires e.HttpExc? && RespTruthy(e.response)
  {
    ErrorCatch.ErrorCatch(e, "")
  }

  /** What a client sees of an exception `errorCatch` rethrew from a built-in one: the status and the text. */
  predicate Rethrown<T>(r: Outcome<T>, status: int, message: string) {
    r.Throw? && r.exc == HttpExc(Some(status), RespText(message))
  }

  function View(u: User): UserView {
    UserView(u.id, u.fname, u.lname, u.address, u.email, u.role)
  }

  function RowOf(u: User): UserRow {
    UserRow(u.id, u.fname, u.lname, u.address, u.email, u.role, u.isActive)
  }

  function ProfileOf(u: User): Profile {
    Profile(u.id, u.fname, u.lname, u.address, u.email)
  }

  // ----- onModuleInit -----

  /** TypeORM's error for a duplicate value in a unique column. */
  const DUPLICATE_KEY := QueryFailed("duplicate key value violates unique constraint")

  /**
   * Creates the OWNER account from configuration when no OWNER exists. When
   * the configured email is already used by another account the insert
   * violates the unique column and the failure is rethrown.
   */
  function OnModuleInit(db: Db, config: AdminConfig, stringify: Thrown -> string): (r: Step<()>)
    ensures HasOwner(db) ==> r == Step(db, Ok(()))
    ensures r.out.Throw? <==> !HasOwner(db) && UserByEmail(db, config.email).Some?
    ensures r.out.Throw? ==> r.db == db && r.out.exc == InternalServerError(stringify(DUPLICATE_KEY))
    ensures r.out.Ok? ==> HasOwner(r.db)
    ensures r.out.Ok? && !HasOwner(db) ==>
              Owners(r.db) == {db.nextUserId}
              && r.db.users[db.nextUserId] == User(db.nextUserId, config.fullName, None, None, config.email,
                                                    config.passwordHash, OWNER, false)
    ensures Valid(db) ==> Valid(r.db)
  {
    if HasOwner(db) then Step(db, Ok(()))
    else if UserByEmail(db, config.email).Some? then
      Step(db, ErrorCatch.ErrorCatch(DUPLICATE_KEY, stringify(DUPLICATE_KEY)))
    else
      var owner := User(0, config.fullName, None, None, config.email, config.passwordHash, OWNER, false);
      var db' := InsertUser(db, owner);
      assert db'.users[db.nextUserId].role == OWNER;
      assert forall k :: k in db.users ==> db.users[k].role != OWNER;
      Step(db', Ok(()))
  }

  /** Running the bootstrap a second time changes nothing. */
  lemma OnModuleInitIdempotent(db: Db, config: AdminConfig, stringify: Thrown -> string)
    requires OnModuleInit(db, config, stringify).out.Ok?
    ensures var db1 := OnModuleInit(db, config, stringify).db;
            OnModuleInit(db1, config, stringify) == Step(db1, Ok(()))
  {
  }

  /** Starting from at most one owner, a successful bootstrap leaves exactly one. */
  lemma {:induction false} ExactlyOneOwner(db: Db, config: AdminConfig, stringify: Thrown -> string)
    requires |Owners(db)| <= 1
    requires OnModuleInit(db, config, stringify).out.Ok?
    ensures |Owners(OnModuleInit(db, config, stringify).db)| == 1
  {
    if HasOwner(db) {
      var k :| k in db.users && db.users[k].role == OWNER;
      assert k in Owners(db);
    }
  }

  // ----- findOne -----

  /** `findOne` as written: the guard is inverted, so a found user throws NotFound and a missing one yields `null` data. */
  function FindOneAsWritten(db: Db, id: int): (r: Outcome<Option<UserView>>)
    ensures r.Throw? <==> id in db.users
    ensures r.Throw? ==> IsBuiltIn(r.exc, NOT_FOUND, IntToString(id) + " id'lik user topilmadi")
    ensures r.Ok? ==> r.value == None
  {
    if id in db.users then Throw(NotFound(IntToString(id) + " id'lik user topilmadi"))
    else Ok(None)
  }

  /** `findOne` with the guard the message intends: NotFound exactly when the id is missing. */
  function FindOne(db: Db, id: int): (r: Outcome<UserView>)
    ensures r.Ok? <==> id in db.users
    ensures r.Ok? ==> r.value == View(db.users[id])
    ensures r.Throw? ==> IsBuiltIn(r.exc, NOT_FOUND, IntToString(id) + " id'lik user topilmadi")
  {
    if id in db.users then Ok(View(db.users[id]))
    else Throw(NotFound(IntToString(id) + " id'lik user topilmadi"))
  }

  /** The written `findOne` never returns a user: it fails on exactly the ids the intended one serves. */
  lemma FindOneInverted(db: Db, id: int)
    ensures FindOneAsWritten(db, id).Throw? <==> FindOne(db, id).Ok?
    ensures FindOneAsWritten(db, id).Ok? ==> FindOneAsWritten(db, id).value.None?
  {
  }

  /** A concrete witness: the only user of a one-row table is reported as not found. */
  lemma FindOneAsWrittenRejectsExistingUser(u: User)
    requires u.id == 1
    ensures var db := EMPTY.(users := map[1 := u], nextUserId := 2);
            Valid(db) && FindOneAsWritten(db, 1).Throw? && FindOne(db, 1) == Ok(View(u))
  {
  }

  // ----- signinAdmin, signIn, authUserProfile -----

  /**
   * `signinAdmin` as intended, with the row read together with its password
   * hash: distinct messages for an unknown email and a wrong password; any
   * role may sign in.
   */
  function SigninAdmin(db: Db, email: string, password: string, matches: (string, string) -> bool): (r: Outcome<AdminSession>)
    ensures UserByEmail(db, email).None? ==> Rethrown(r, BAD_REQUEST, "Email is incorrect")
    ensures UserByEmail(db, email).Some? && !matches(password, UserByEmail(db, email).value.password) ==>
              Rethrown(r, BAD_REQUEST, "Password is incorrect")
    ensures r.Ok? <==> UserByEmail(db, email).Some? && matches(password, UserByEmail(db, email).value.password)
    ensures r.Ok? ==> var u := UserByEmail(db, email).value;
                      r.value == AdminSession(AdminClaims(u.id, u.role, email), ADMIN_COOKIE)
  {
    match UserByEmail(db, email)
    case None => RethrowHttp(BadRequest("Email is incorrect"))
    case Some(u) =>
      if !matches(password, u.password) then RethrowHttp(BadRequest("Password is incorrect"))
      else Ok(AdminSession(AdminClaims(u.id, u.role, email), ADMIN_COOKIE))
  }

  /**
   * `signIn` (identical in the auth service) as intended, with the row read
   * together with its password hash: one message for an unknown email and
   * for a wrong password, and the token claims are exactly `{id, role}`.
   * Activation is not checked.
   */
  function SignIn(db: Db, email: string, password: string, matches: (string, string) -> bool): (r: Outcome<Session>)
    ensures r.Throw? ==> Rethrown(r, BAD_REQUEST, SIGN_IN_FAILED)
    ensures r.Ok? <==> UserByEmail(db, email).Some? && matches(password, UserByEmail(db, email).value.password)
    ensures r.Ok? ==> var u := UserByEmail(db, email).value;
                      r.value == Session(Payload(u.id, u.role), USER_COOKIE)
  {
    match UserByEmail(db, email)
    case None => RethrowHttp(BadRequest(SIGN_IN_FAILED))
    case Some(u) =>
      if !matches(password, u.password) then RethrowHttp(BadRequest(SIGN_IN_FAILED))
      else Ok(Session(Payload(u.id, u.role), USER_COOKIE))
  }

  /** In the corrected sign-in, an unknown email and a wrong password are indistinguishable to the caller. */
  lemma SignInFailuresAlike(db: Db, e1: string, p1: string, e2: string, p2: string, matches: (string, string) -> bool)
    requires UserByEmail(db, e1).None?
    requires UserByEmail(db, e2).Some? && !matches(p2, UserByEmail(db, e2).value.password)
    ensures SignIn(db, e1, p1, matches) == SignIn(db, e2, p2, matches)
  {
  }

  /** An inactive account signs in like any other. */
  lemma SignInIgnoresActivation(db: Db, email: string, password: string, matches: (string, string) -> bool)
    requires Valid(db)
    requires UserByEmail(db, email).Some?
    ensures var u := UserByEmail(db, email).value;
            var db' := db.(users := db.users[u.id := u.(isActive := !u.isActive)]);
            SignIn(db', email, password, matches) == SignIn(db, email, password, matches)
  {
    var u := UserByEmail(db, email).value;
    var db' := db.(users := db.users[u.id := u.(isActive := !u.isActive)]);
    assert db'.users[u.id].email == email;
    assert forall k :: k in db'.users ==> (db'.users[k].email == email <==> db.users[k].email == email);
    var a := UserByEmail(db', email);
    assert a.Some?;
    assert a.value.id == u.id;
  }

  /**
   * What bcrypt's `compare` rejects with when the hash argument is
   * undefined. The `password` column is declared `select: false`, so the row
   * `findOne({ where: { email } })` loads carries no password at all.
   */
  const MISSING_HASH := PlainErr("Error", "data and hash arguments required", RespNone)

  /**
   * `signinAdmin` as written: the loaded row has no hash, so for a known
   * email the comparison rejects and `errorCatch` turns the rejection into
   * an internal error. Only the unknown-email branch behaves as intended.
   */
  function SigninAdminAsWritten(db: Db, email: string, password: string, stringify: Thrown -> string): (r: Outcome<AdminSession>)
    ensures r.Throw?
    ensures UserByEmail(db, email).None? <==> Rethrown(r, BAD_REQUEST, "Email is incorrect")
    ensures UserByEmail(db, email).Some? ==> r.exc == InternalServerError(stringify(MISSING_HASH))
  {
    match UserByEmail(db, email)
    case None => RethrowHttp(BadRequest("Email is incorrect"))
    case Some(_) => ErrorCatch.ErrorCatch(MISSING_HASH, stringify(MISSING_HASH))
  }

  /** `signIn` as written (in both services): never succeeds, and a known email is a 500 rather than the 400. */
  function SignInAsWritten(db: Db, email: string, password: string, stringify: Thrown -> string): (r: Outcome<Session>)
    ensures r.Throw?
    ensures UserByEmail(db, email).None? <==> Rethrown(r, BAD_REQUEST, SIGN_IN_FAILED)
    ensures UserByEmail(db, email).Some? ==> r.exc == InternalServerError(stringify(MISSING_HASH))
  {
    match UserByEmail(db, email)
    case None => RethrowHttp(BadRequest(SIGN_IN_FAILED))
    case Some(_) => ErrorCatch.ErrorCatch(MISSING_HASH, stringify(MISSING_HASH))
  }

  /**
   * The right password of a stored account: the intended sign-in admits it,
   * the written one answers 500. The written one also tells an unknown email
   * apart from a known one, which the single message was meant to hide.
   */
  lemma SignInAsWrittenRejectsRightPassword(db: Db, email: string, password: string, other: string,
                                            matches: (string, string) -> bool, stringify: Thrown -> string)
    requires UserByEmail(db, email).Some? && matches(password, UserByEmail(db, email).value.password)
    requires UserByEmail(db, other).None?
    ensures SignIn(db, email, password, matches).Ok?
    ensures SignInAsWritten(db, email, password, stringify).exc.status == Some(INTERNAL_SERVER_ERROR)
    ensures SignInAsWritten(db, other, password, stringify) != SignInAsWritten(db, email, password, stringify)
    ensures SigninAdmin(db, email, password, matches).Ok?
    ensures SigninAdminAsWritten(db, email, password, stringify).exc.status == Some(INTERNAL_SERVER_ERROR)
  {
  }

  /** `authUserProfile`: the requester's public fields, NotFound for a deleted account, Unauthorized without `req.user`. */
  function AuthUserProfile(db: Db, requester: Option<Payload>): (r: Outcome<Profile>)
    ensures requester.None? ==> Rethrown(r, UNAUTHORIZED, "User not authenticated")
    ensures requester.Some? && requester.value.id !in db.users ==> Rethrown(r, NOT_FOUND, "User not found")
    ensures r.Ok? <==> requester.Some? && requester.value.id in db.users
    ensures r.Ok? ==> r.value == ProfileOf(db.users[requester.value.id])
  {
    match requester
    case None => RethrowHttp(Unauthorized("User not authenticated"))
    case Some(p) =>
      if p.id !in db.users then RethrowHttp(NotFound("User not found"))
      else Ok(ProfileOf(db.users[p.id]))
  }

  // ----- signUp and confirmOtp (cache revision) -----

  /**
   * Cache-based `signUp`: a duplicate email changes nothing; otherwise the
   * account is stored as an inactive USER whatever role the body names, the
   * code is cached under the email, and a mail failure is rethrown with the
   * account and the cache entry kept.
   */
  function SignUpCached(db: Db, cache: Cache, dto: SignUpDto, hash: string -> string, code: string,
                        mailFailure: Option<Thrown>, stringify: Thrown -> string): (r: CacheStep<string>)
    ensures UserByEmail(db, dto.email).Some? ==>
              r.db == db && r.cache == cache
              && Rethrown(r.out, BAD_REQUEST, "Email " + dto.email + " already exists")
    ensures UserByEmail(db, dto.email).None? ==>
              && r.db.users == db.users[db.nextUserId := User(db.nextUserId, dto.fname, dto.lname, dto.address,
                                                              dto.email, hash(dto.password), USER, false)]
              && r.cache == cache[dto.email := code]
              && (r.out.Ok? <==> mailFailure.None?)
    ensures r.out.Ok? ==> r.out.value == "Otp sent to email " + dto.email
    ensures Valid(db) ==> Valid(r.db)
  {
    if UserByEmail(db, dto.email).Some? then
      CacheStep(db, cache, RethrowHttp(BadRequest("Email " + dto.email + " already exists")))
    else
      var db' := InsertUser(db, User(0, dto.fname, dto.lname, dto.address, dto.email, hash(dto.password), USER, false));
      var cache' := cache[dto.email := code];
      match mailFailure
      case Some(e) => CacheStep(db', cache', ErrorCatch.ErrorCatch(e, stringify(e)))
      case None => CacheStep(db', cache', Ok("Otp sent to email " + dto.email))
  }

  /** `confirmOtp`: the account must exist and the cached code must be non-empty and equal; nothing changes either way. */
  function ConfirmOtp(db: Db, cache: Cache, email: string, otp: string): (r: Outcome<string>)
    ensures UserByEmail(db, email).None? ==> Rethrown(r, BAD_REQUEST, "User with email " + email + " does not exist")
    ensures UserByEmail(db, email).Some? && r.Throw? ==> Rethrown(r, BAD_REQUEST, "Incorrect or expired otp")
    ensures r.Ok? <==> UserByEmail(db, email).Some? && email in cache && cache[email] != "" && cache[email] == otp
    ensures r.Ok? ==> r.value == "Otp confirmed successfully"
  {
    if UserByEmail(db, email).None? then RethrowHttp(BadRequest("User with email " + email + " does not exist"))
    else if email !in cache || cache[email] == "" || cache[email] != otp then
      RethrowHttp(BadRequest("Incorrect or expired otp"))
    else Ok("Otp confirmed successfully")
  }

  /** Signing up and then confirming with the mailed code succeeds; another code does not. */
  lemma SignUpThenConfirm(db: Db, cache: Cache, dto: SignUpDto, hash: string -> string, code: string,
                          other: string, stringify: Thrown -> string)
    requires Valid(db) && UserByEmail(db, dto.email).None? && code != "" && other != code
    ensures var s := SignUpCached(db, cache, dto, hash, code, None, stringify);
            && ConfirmOtp(s.db, s.cache, dto.email, code) == Ok("Otp confirmed successfully")
            && Rethrown(ConfirmOtp(s.db, s.cache, dto.email, other), BAD_REQUEST, "Incorrect or expired otp")
  {
    var s := SignUpCached(db, cache, dto, hash, code, None, stringify);
    assert s.db.users[db.nextUserId].email == dto.email;
    assert UserByEmail(s.db, dto.email).Some?;
  }

  // ----- updateUser, updateUserRole, deleteUser -----

  /** TypeORM's error for an `update` with no values to set. */
  const NO_VALUES := PlainErr("UpdateValuesMissingError",
    "Cannot perform update query because update values are not defined.", RespNone)

  predicate EmptyProfilePatch(p: ProfilePatch) {
    p.fname.None? && p.lname.None? && p.address.None? && p.email.None? && p.password.None?
  }

  /** The stored row with the present patch fields written over it. */
  function ApplyProfile(u: User, p: ProfilePatch): (v: User)
    ensures v.id == u.id && v.role == u.role && v.isActive == u.isActive
    ensures v.email == p.email.GetOr(u.email) && v.fname == p.fname.GetOr(u.fname)
    ensures v.password == p.password.GetOr(u.password)
    ensures v.lname == (if p.lname.Some? then p.lname else u.lname)
    ensures v.address == (if p.address.Some? then p.address else u.address)
    ensures EmptyProfilePatch(p) ==> v == u
  {
    u.(fname := p.fname.GetOr(u.fname),
       lname := if p.lname.Some? then p.lname else u.lname,
       address := if p.address.Some? then p.address else u.address,
       email := p.email.GetOr(u.email),
       password := p.password.GetOr(u.password))
  }

  /** Another account already holds `email`. */
  predicate EmailHeldByOther(db: Db, id: int, email: string) {
    exists k :: k in db.users && k != id && db.users[k].email == email
  }

  /**
   * Writes a patch to one row through `userRepo.update`: an empty patch and a
   * duplicate email are database errors, which `errorCatch` turns into
   * internal errors.
   */
  function WriteUser(db: Db, id: int, u: User, emptyPatch: bool, stringify: Thrown -> string): (r: Step<User>)
    requires id in db.users
    ensures r.out.Ok? <==> !emptyPatch && !EmailHeldByOther(db, id, u.email)
    ensures r.out.Ok? ==> r.db == db.(users := db.users[id := u]) && r.out.value == u
    ensures r.out.Throw? ==> r.db == db
    ensures Valid(db) && u.id == db.users[id].id ==> Valid(r.db)
  {
    if emptyPatch then Step(db, ErrorCatch.ErrorCatch(NO_VALUES, stringify(NO_VALUES)))
    else if EmailHeldByOther(db, id, u.email) then Step(db, ErrorCatch.ErrorCatch(DUPLICATE_KEY, stringify(DUPLICATE_KEY)))
    else Step(db.(users := db.users[id := u]), Ok(u))
  }

  /** `updateUser`: NotFound for a missing id, Forbidden for the OWNER, otherwise only the patch's fields change. */
  function UpdateUser(db: Db, id: int, patch: ProfilePatch, stringify: Thrown -> string): (r: Step<Profile>)
    ensures id !in db.users ==> r.db == db && Rethrown(r.out, NOT_FOUND, "User with ID " + IntToString(id) + " not found")
    ensures id in db.users && db.users[id].role == OWNER ==> r.db == db && Rethrown(r.out, FORBIDDEN, "Can't update the owner")
    ensures r.out.Throw? ==> r.db == db
    ensures r.out.Ok? <==> id in db.users && db.users[id].role != OWNER && !EmptyProfilePatch(patch)
                           && !EmailHeldByOther(db, id, ApplyProfile(db.users[id], patch).email)
    ensures r.out.Ok? ==> var v := ApplyProfile(db.users[id], patch);
                          r.db == db.(users := db.users[id := v]) && r.out.value == ProfileOf(v)
    ensures Valid(db) ==> Valid(r.db)
  {
    if id !in db.users then Step(db, RethrowHttp(NotFound("User with ID " + IntToString(id) + " not found")))
    else if db.users[id].role == OWNER then Step(db, RethrowHttp(Forbidden("Can't update the owner")))
    else
      var w := WriteUser(db, id, ApplyProfile(db.users[id], patch), EmptyProfilePatch(patch), stringify);
      match w.out
      case Ok(v) => Step(w.db, Ok(ProfileOf(v)))
      case Throw(e) => Step(w.db, Throw(e))
  }

  /** `updateUserRole`: NotFound for a missing id; there is no owner protection, so the OWNER can be demoted. */
  function UpdateUserRole(db: Db, id: int, patch: RolePatch, stringify: Thrown -> string): (r: Step<UserRow>)
    ensures id !in db.users ==> r.db == db && Rethrown(r.out, NOT_FOUND, "User with ID " + IntToString(id) + " not found")
    ensures r.out.Throw? ==> r.db == db
    ensures r.out.Ok? <==> id in db.users && !(EmptyProfilePatch(patch.profile) && patch.role.None?)
                           && !EmailHeldByOther(db, id, ApplyProfile(db.users[id], patch.profile).email)
    ensures r.out.Ok? ==> var v := ApplyProfile(db.users[id], patch.profile).(role := patch.role.GetOr(db.users[id].role));
                          r.db == db.(users := db.users[id := v]) && r.out.value == RowOf(v)
    ensures Valid(db) ==> Valid(r.db)
  {
    if id !in db.users then Step(db, RethrowHttp(NotFound("User with ID " + IntToString(id) + " not found")))
    else
      var u := db.users[id];
      var v := ApplyProfile(u, patch.profile).(role := patch.role.GetOr(u.role));
      var w := WriteUser(db, id, v, EmptyProfilePatch(patch.profile) && patch.role.None?, stringify);
      match w.out
      case Ok(v') => Step(w.db, Ok(RowOf(v')))
      case Throw(e) => Step(w.db, Throw(e))
  }

  /** `deleteUser`: NotFound for a missing id; otherwise the account and everything it created go, OWNER included. */
  function DeleteUser(db: Db, id: int): (r: Step<()>)
    ensures r.out.Ok? <==> id in db.users
    ensures r.out.Throw? ==> r.db == db && Rethrown(r.out, NOT_FOUND, "User with ID " + IntToString(id) + " not found")
    ensures r.out.Ok? ==> r.db == DeleteUserCascade(db, id) && id !in r.db.users
    ensures Valid(db) ==> Valid(r.db)
  {
    if id !in db.users then Step(db, RethrowHttp(NotFound("User with ID " + IntToString(id) + " not found")))
    else Step(DeleteUserCascade(db, id), Ok(()))
  }

  /** The owner check of `updateUser` is the only thing that protects the OWNER: a role change goes through. */
  lemma OwnerDemotable(db: Db, id: int, stringify: Thrown -> string)
    requires Valid(db) && id in db.users && db.users[id].role == OWNER
    ensures var noChange := ProfilePatch(None, None, None, None, None);
            && UpdateUser(db, id, ProfilePatch(Some("x"), None, None, None, None), stringify).out.Throw?
            && UpdateUserRole(db, id, RolePatch(noChange, Some(USER)), stringify).out.Ok?
            && UpdateUserRole(db, id, RolePatch(noChange, Some(USER)), stringify).db.users[id].role == USER
  {
    var u := db.users[id];
    assert ApplyProfile(u, ProfilePatch(None, None, None, None, None)).email == u.email;
    assert !EmailHeldByOther(db, id, u.email);
  }
}

=== FILE: wrappers.dfy ===
/** Optional values: JavaScript's `undefined`/`null` versus a present value. */
module Wrappers {

  datatype Option<+T> = None | Some(value: T) {

    /** The value, or `default` when absent (JavaScript's `x ?? default`). */
    function GetOr(default: T): T {
      match this
      case Some(v) => v
      case None => default
    }
  }
}
